=== FILE: README.md ===
# Multi-chatbot front-end: a Dafny model of its state and persistence rules

The application is a web chat front-end. A signed-in user owns several chatbots. Each chatbot holds chat
sessions of messages and has its own webhook settings. Sending a message posts it to the chatbot's webhook,
and the reply is appended as an assistant message. Every change is written through a persistence gateway.

This project models, as pure Dafny functions over immutable values:

- the page-level state store and its reducers (`app/page.tsx`): create a session, update settings, add a
  message, add, remove and rename a chatbot, sign out, the auth listener, the first load, URL parameters,
  and the derived active chatbot and active session — module `State`, with cross-reducer properties in
  `StateProps`;
- the send handler of the chat pane (`components/chat-interface.tsx`): the send guard, the request body
  built from configurable key names, and the choice of reply text — module `Relay`;
- the persistence gateway (`lib/database-service.ts`):
  - the saves, delete and sign-out — module `Gateway`;
  - `loadUserChatbots`, with default seeding and graceful degradation — module `Loader`;
  - `checkDatabaseHealth` — module `Health`;
- the sidebar handlers (`components/sidebar.tsx`): the add and rename forms, the minimum-one-chatbot delete
  guard, the expanded map, and what clicking a chatbot or a session selects — module `Sidebar`;
- the settings dialog (`components/settings-modal.tsx`): normalisation with `||` defaults, the password
  gate and the save — module `SettingsDialog`;
- helpers: JavaScript `trim` and decimal rendering of clock readings (`Text`), and the entities of
  `lib/types.ts` with first-match lookups (`Types`).

Environment inputs become parameters:

- Clock readings (`Date.now()`) are `nat` values; the ids built from them (`session_<n>`, `bot_<n>`,
  `msg_<n>`) are rendered by `Text.NatToString`.
- ISO timestamps are strings.
- Each gateway call's outcome is a `Status` (`{success, error}`) or an `Option<Fault>` parameter.
- The webhook's answer is a `Relay.Response`.
- The confirmation dialog's answer is a `bool`.
- The configured settings password is an `Option<string>`.
- Toasts are returned as `State.Notice` values.
- The remote store is a record of three maps keyed by row id.

An optimistic update is applied whatever the gateway answers, and nothing is rolled back; the model keeps
that.

## Model

| member | source | states |
|---|---|---|
| Text.Trim | components/sidebar.tsx:79-80 | the trimmed string is the part of the input between a run of leading and a run of trailing white space; it is empty exactly when the input is all white space, and otherwise starts and ends with a non-space character |
| Text.TrimIdempotent | components/chat-interface.tsx:40 | trimming an already trimmed string changes nothing |
| Text.ParseNatToString | app/page.tsx:144 | the decimal rendering of a clock reading reads back as the same number, so it loses nothing |
| Text.NatToStringInjective | app/page.tsx:258 | distinct clock readings give distinct id suffixes |
| Types.IndexOf | app/page.tsx:390 | `find` stops at the first match: the index holds the key, no earlier element does, and there is no index exactly when the key is absent |
| Types.FindChatbot | app/page.tsx:390 | the chatbot found has the requested id and is in the list; nothing is found exactly when no chatbot has that id |
| Types.FindUnique | app/page.tsx:390 | with unique ids, the lookup returns the chatbot at that id's position |
| Types.RoleName | lib/types.ts:3 | the roles are stored as "user", "assistant" and "system", one name per role, so the stored name determines the role |
| State.CreateNewSession | app/page.tsx:141-189 | the new session gets id `session_<now>`, is appended to the target chatbot only, and becomes the active session of that chatbot; a failed save only adds an error toast |
| State.NewSession | app/page.tsx:144-152 | the session is named "Chat n+1" for a chatbot holding n sessions ("Chat 1" for an unknown chatbot), starts empty, and has thread id `userId_sessionId` |
| State.UpdateChatbotSettings | app/page.tsx:191-223 | only the matching chatbot's settings change; a toast reports the save only when the chatbot exists |
| State.AddMessage | app/page.tsx:225-253 | the message goes to the end of the matching session of the matching chatbot, and nothing else changes |
| State.AddChatbot | app/page.tsx:255-291 | a chatbot with id `bot_<now>`, the given name, no sessions and no settings is appended and becomes active; the user, the session selection and the flags are unchanged; the toast reports success or the error |
| State.RemoveChatbot | app/page.tsx:293-331 | the list becomes the order-keeping filter of the other ids; removing the active one selects the earliest chatbot of the old list with another id and clears the active session; the user and the flags are unchanged |
| State.RenameChatbot | app/page.tsx:333-360 | only the matching chatbot's name changes; a toast appears exactly when the chatbot exists and the save failed |
| State.HandleSignOut | app/page.tsx:362-386 | a successful sign-out clears the chatbots, the user id and the flags but keeps the active ids; a failed one leaves the state and shows an error toast |
| State.SignOutReset | app/page.tsx:372-376 | signing out leaves no chatbots, no user id and clears the authenticated and initialized flags; the active chatbot and session ids are kept |
| State.UserIdOf | app/page.tsx:78 | the user id is the username, else the e-mail local part, else "user", and is never empty |
| State.OnAuthChange | app/page.tsx:73-90 | losing the session resets the state; a session with a profile authenticates under the derived user id; one without a profile does not authenticate |
| State.FinishLoad | app/page.tsx:96-123 | the first load after authentication installs the loaded chatbots, selects the first and marks the page initialized, leaving the user, the auth flag and the session selection alone; otherwise nothing changes |
| State.ApplyUrlParams | app/page.tsx:126-139 | non-empty `bot` and `session` parameters override the active ids once initialized; the tree, the user and the flags are untouched |
| State.ActiveChatbot | app/page.tsx:388-391 | nothing is active exactly when there are no chatbots; otherwise the active chatbot is the one with the active id or, failing that, the first |
| State.ActiveSession | app/page.tsx:393-396 | an empty or missing session id selects nothing; otherwise the active session is the active chatbot's session with that id |
| State.RemoveFrom | app/page.tsx:296 | the filter keeps exactly the chatbots with other ids, and an absent id keeps the list as it is; the first survivor is the earliest chatbot with another id, and the full order is stated, for unique ids, by StateProps.RemoveUnique |
| StateProps.RenameUndo | app/page.tsx:336 | renaming keeps the ids, and renaming back to the old name restores the list |
| StateProps.SettingsVisibleDespiteFailure | app/page.tsx:194-203 | the written settings are what the tree holds for that chatbot, whether or not the save succeeded |
| StateProps.SettingsIdempotent | app/page.tsx:194 | writing the same settings twice equals writing them once |
| StateProps.AppendToMissingIsIdentity | app/page.tsx:227-243 | a message addressed to a missing session leaves the tree unchanged |
| StateProps.AppendLandsAtEnd | app/page.tsx:227-243 | with unique ids, the message becomes the last one of exactly that session |
| StateProps.AppendAddsOneMessage | app/page.tsx:227-243 | with unique ids, the tree holds exactly one more message than before |
| StateProps.CreateSelectsNewSession | app/page.tsx:141-189 | after creating a session on an existing chatbot, the active session is the new empty one named "Chat n+1" |
| StateProps.AddChatbotActivates | app/page.tsx:255-291 | with a fresh id, the new chatbot is the active chatbot and ids stay unique |
| StateProps.RemoveUnique | app/page.tsx:296 | with unique ids, removing a chatbot deletes exactly its slot |
| StateProps.GuardedRemoveKeepsOne | app/page.tsx:293-331 | from more than one chatbot, a removal leaves at least one, keeps ids unique, and an active id that named a chatbot still names one, whether the active chatbot or another one was removed |
| StateProps.LoadSelectsFirst | app/page.tsx:101-108 | after a non-empty first load, the active chatbot is the first loaded |
| StateProps.AppendTwiceLandsAtEnd | app/page.tsx:227-243 | two appends to one existing session land at its end in call order |
| Relay.MappingOf | components/chat-interface.tsx:63-71 | each key name and the bot id value fall back to their defaults only when the setting is undefined; an empty string is used as it is |
| Relay.ObjectFromEntries | components/chat-interface.tsx:74-78 | the object has exactly the entry keys, and each key holds its last entry's value |
| Relay.RequestBody | components/chat-interface.tsx:74-78 | the body has the three configured keys; the message always survives, and each earlier entry survives unless a later key collides with it |
| Relay.ThreadIdFor | components/chat-interface.tsx:77 | the session's thread id is used when set, else `userId_sessionId` |
| Relay.ReplyText | components/chat-interface.tsx:89-128 | a failed exchange gives the fixed error text; a successful one gives the response field when non-empty, else "No response received"; never empty |
| Relay.HandleSend | components/chat-interface.tsx:36-134 | a blank input or a pending send is ignored; otherwise the user message is sent to the selected or a fresh session, a request is issued exactly when a webhook URL is set, and the reply is chosen accordingly |
| Relay.ApplySend | components/chat-interface.tsx:56-116 | an accepted send adds the user message and then the reply to the session; an ignored one changes nothing |
| Relay.SendAppendsPair | components/chat-interface.tsx:36-134 | a send into an existing session appends exactly the user message followed by one assistant message, whatever the webhook answered |
| Relay.CollidingKeysLaterWins | components/chat-interface.tsx:74-78 | when the thread key and the message key coincide, the body holds the message under that key and the thread id is lost |
| Relay.ExampleHelloExchange | components/chat-interface.tsx:63-103 | keys "b", "m", "r" give the body {b: id, threadId: thread, m: "hi"}, and the reply {r: "hello"} yields "hello" |
| Relay.ExampleFailures | components/chat-interface.tsx:104-128 | a failed exchange gives the error text and an empty body gives "No response received" |
| Gateway.FaultMessage | lib/database-service.ts:275-284 | a returned error reports its message; a thrown non-Error reports "Unknown error" |
| Gateway.MessageProblem | lib/database-service.ts:357-371 | the checks run in order session, id, role, content, and the first failing one names the error; none fails exactly when all four are non-empty |
| Gateway.SaveMessage | lib/database-service.ts:353-398 | the save succeeds exactly when all checks pass and the call does not fail, and then upserts the row under the message id (missing timestamp = now); otherwise the store is unchanged |
| Gateway.SessionRowOf | lib/database-service.ts:317-324 | an empty name becomes "Chat <now>" and an empty thread id "thread_<now>"; both are non-empty |
| Gateway.SaveMessages | lib/database-service.ts:337-344 | the message loop touches only message rows, only under the saved ids, and keeps every other row |
| Gateway.SaveSession | lib/database-service.ts:304-351 | chatbot id then session id are checked; success depends only on the session upsert, which writes the row; the messages are then saved one by one as SaveMessages does, and message rows under other ids are kept |
| Gateway.SaveChatbot | lib/database-service.ts:244-286 | an auth error or a missing user fails with the matching message; otherwise the row is upserted with the user id, and missing settings are stored as `{}` |
| Gateway.DeleteChatbot | lib/database-service.ts:288-302 | a successful delete removes exactly that chatbot row; a failure keeps the store |
| Gateway.SignOut | lib/database-service.ts:400-412 | sign-out succeeds exactly when the call does not fail, and otherwise reports the failure's message |
| Gateway.TypedRoleIsNeverMissing | lib/database-service.ts:365-367 | a message carrying a role never trips the missing-role check |
| Gateway.SaveMessageIdempotent | lib/database-service.ts:373-385 | saving the same message twice equals saving it once |
| Gateway.SaveMessageLastWriteWins | lib/database-service.ts:373-385 | two saves under one id leave one row holding the later write |
| Gateway.SessionSuccessDoesNotImplyMessages | lib/database-service.ts:337-346 | a session save can succeed while one of its messages is rejected and not stored |
| Gateway.SaveMessagesStoresValid | lib/database-service.ts:337-344 | every valid message whose upsert succeeds is stored, as its row |
| Loader.SeedBots | lib/database-service.ts:123-163 | the seeded list holds exactly the default chatbots whose insert succeeded; when all succeed, all three are returned in order |
| Loader.LoadBot | lib/database-service.ts:169-233 | a chatbot keeps its id and name, its settings default to `{}`, and a failed session query gives no sessions |
| Loader.LoadSession | lib/database-service.ts:193-225 | a session keeps its id, name and thread id, and a failed message query gives no messages |
| Loader.LoadUserChatbots | lib/database-service.ts:80-242 | no user, no profile or a failed chatbot query gives an empty list; no chatbots gives the seeded defaults; otherwise every stored chatbot is loaded in order |
| Loader.FirstLoadSeedsDefaults | lib/database-service.ts:123-163 | a first load where every insert succeeds yields Assistant, Coder and Creative, in that order, with ids `userId_assistant`, `userId_coder` and `userId_creative` |
| Loader.FailedSeedOmitted | lib/database-service.ts:133-160 | a default chatbot whose insert fails is left out, and the others keep their order |
| Health.CheckTable | lib/database-service.ts:425-436 | a table exists exactly when it can be read; it is writable exactly when both probes answered |
| Health.CheckDatabaseHealth | lib/database-service.ts:415-502 | `exists` equals `canRead` per table and `canWrite` implies `canRead`; overall success holds exactly when every probe of every table answered |
| Sidebar.HandleAddChatbot | components/sidebar.tsx:78-84 | a blank name does nothing; otherwise the trimmed name is submitted and the form is reset |
| Sidebar.HandleSaveEdit | components/sidebar.tsx:91-97 | a rename to the trimmed name is issued exactly when an id is being edited and the name is not blank; the form is cleared either way |
| Sidebar.StartEdit | components/sidebar.tsx:86-89 | starting an edit records the chatbot's id as the one being edited and pre-fills its current name |
| Sidebar.SaveUntouchedEdit | components/sidebar.tsx:86-97 | saving an edit left as started renames the chatbot to its trimmed name, which is its own name when that has no surrounding white space |
| Sidebar.HandleRemoveChatbot | components/sidebar.tsx:104-112 | a removal is issued exactly when more than one chatbot exists and the user confirmed; with one chatbot the user is told instead |
| Sidebar.InitExpanded | components/sidebar.tsx:51-53 | initially every chatbot, and nothing else, is expanded |
| Sidebar.SyncExpanded | components/sidebar.tsx:59-69 | a list change adds unseen chatbots as expanded and keeps every existing entry, collapsed ones included |
| Sidebar.Toggle | components/sidebar.tsx:71-76 | toggling flips one entry, an absent entry becomes expanded, and other entries are kept |
| Sidebar.ToggleTwiceRestores | components/sidebar.tsx:71-76 | toggling a known entry twice restores the map |
| Sidebar.SyncIdempotent | components/sidebar.tsx:59-69 | re-syncing an unchanged list changes nothing, and syncing from the empty map gives the initial map |
| Sidebar.ClickChatbot | components/sidebar.tsx:205-213 | the clicked chatbot becomes active; a chatbot with no sessions gets a new, selected session; otherwise its first session is selected only when no session is active, and the tree, the user and the flags are unchanged |
| Sidebar.ClickSessionSelects | components/sidebar.tsx:271-274 | with unique ids, a clicked session is the active session afterwards |
| Sidebar.UrlSessionOverridesClick | app/page.tsx:126-139 | on an initialized page with a `session` parameter, a click on another session selects it, and the URL effect, re-run on that change, selects the parameter's session again |
| Sidebar.ClickSession | components/sidebar.tsx:271-274 | a session click sets the active chatbot id to its chatbot's id, which resolves to that chatbot, and the session id the active session id; the tree, the user and the flags are untouched |
| Sidebar.NeverBelowOne | components/sidebar.tsx:104-112 | once at least one chatbot exists, no sequence of add, rename and guarded delete actions empties the list, and ids stay unique |
| Sidebar.LogoutClick | components/sidebar.tsx:293-296 | as wired, a click on "Logout" leaves the whole state as it was and shows nothing |
| Sidebar.LogoutKeepsUserSignedIn | components/sidebar.tsx:293 | a signed-in user who clicks "Logout" stays signed in, and the state differs from what a successful sign-out gives |
| Sidebar.LogoutClickFixed | app/page.tsx:362-386 | wired to the page's sign-out handler, a successful click signs the user out, clears the chatbots, the user id and the initialized flag, keeps the active ids and shows nothing; a failed one keeps the state and shows the sign-out failure toast |
| SettingsDialog.Normalize | components/settings-modal.tsx:37-46 | a missing or empty stored field is replaced by its default, a non-empty one is kept, and the result always has non-empty key names |
| SettingsDialog.InitialDialog | components/settings-modal.tsx:18-28 | a newly mounted dialog is locked with no password or error, and its form holds the defaults with the chatbot's id as bot id value |
| SettingsDialog.SaveReopenRoundTrip | components/settings-modal.tsx:37-65 | saving a form and reopening the dialog shows the same form exactly when its key names are non-empty and its bot id value is empty only if the chatbot id is |
| SettingsDialog.NormalizeIdempotent | components/settings-modal.tsx:37-46 | normalising stored settings twice is normalising them once |
| SettingsDialog.Open | components/settings-modal.tsx:30-48 | opening locks the gate and clears the password; stored settings refill the form, and absent settings leave the previous form in place |
| SettingsDialog.OpenKeepsStaleForm | components/settings-modal.tsx:37-46 | after chatbot A, opening for a chatbot B without stored settings shows A's id as the bot id value, and saving stores it for B |
| SettingsDialog.OpenFixed | components/settings-modal.tsx:30-48 | absent settings show the chatbot's defaults; otherwise it agrees with the as-written dialog |
| SettingsDialog.OpenFixedIgnoresHistory | components/settings-modal.tsx:21-48 | the corrected dialog's form depends only on the chatbot and is always normal for it |
| SettingsDialog.Authenticate | components/settings-modal.tsx:50-60 | the configured password, or "hdm123" when none is set, unlocks and clears the error; anything else shows "Incorrect password" |
| SettingsDialog.GateOpensOnlyOnMatch | components/settings-modal.tsx:50-60 | a freshly opened dialog is unlocked by one attempt exactly when the typed password is the one in effect, and never by an empty one |
| SettingsDialog.CorrectPassword | components/settings-modal.tsx:51-52 | the password in effect is the configured one when set and non-empty, otherwise "hdm123"; it is never empty |
| SettingsDialog.SaveSettings | components/settings-modal.tsx:62-65 | the form is handed over unchanged, field by field, and the dialog closes; for every chatbot id, reopening shows the same form exactly when it was normal |
| SettingsDialog.SavedFormDrivesRequest | components/chat-interface.tsx:63-71 | the saved form's values are exactly what the send handler uses; an emptied key is sent as the empty key although the dialog shows its default |

## Left out

- Network, database and browser I/O: every call's outcome is an input, and console logging is dropped.
- Toasts are values; their timing and display are not modelled.
- `State.CreateNewSession`: the source is `async` while the chat pane's prop type says it returns a string
  (components/chat-interface.tsx:17). The model takes the synchronous reading, so the fresh session id is
  a parameter of `Relay.HandleSend`. A send that creates a session is not composed with the tree update.
  The pane renders the input form only when a session exists (components/chat-interface.tsx:182), so that
  branch is not reached from the page.
- Async interleaving and stale closures: every reducer is applied to the current state in one step. For
  example, `removeChatbot` reads the captured `chatbots` when it recomputes the selection
  (app/page.tsx:314-320); the model uses the state it is given.
- The 1500 ms loading-animation delay and the `isLoading` flag of the chat pane
  (components/chat-interface.tsx:59, 106, 130) are not modelled; `loading` is an input of
  `Relay.HandleSend`.
- `getCurrentUser` profile creation (lib/database-service.ts:5-78) is reduced to the `profileFound` flag of
  `Loader.Remote`. Writes to `user_profiles` are not modelled.
- Loader.LoadUserChatbots: a throw anywhere in the load, which yields `[]` (lib/database-service.ts:238-241),
  is only modelled for the queries the `Remote` record names.
- Gateway.SaveChatbot: a throw from the identity lookup itself is not distinguished from a failing upsert.
- Database-side effects such as cascade deletes of sessions and messages are not modelled; the store keeps
  them.
- Relay.ReplyText: response fields that are not strings (numbers, objects) are not modelled; the body is a
  map from strings to strings.
- `checkDatabaseHealth` on page load (app/page.tsx:25-39) only shows a toast and is not modelled beyond
  `Health.CheckDatabaseHealth`.
- The debug panel, the auth forms and the message list rendering are outside this model.
- State.SignOutReset: sign-out leaves the active chatbot and session ids as they were
  (app/page.tsx:372-376, 84-88); only the list, the user id and the flags are cleared.
- The new-chat button (components/sidebar.tsx:233-236) is `State.CreateNewSession` followed by selecting the
  returned id, which that reducer already does, so it has no member of its own. The cancel actions of the
  add and rename forms (components/sidebar.tsx:99-102, 134-136, 148-150) only clear the form, which
  `Sidebar.HandleAddChatbot` and `Sidebar.HandleSaveEdit` already show.
- State.ApplyUrlParams: the effect runs again after every change of the active ids (app/page.tsx:126-139), and
  nothing writes the URL back. With `bot` or `session` parameters present, each later selection therefore
  snaps back to the parameters. The model applies the parameters as a separate step, so
  `Sidebar.ClickSessionSelects`, `Sidebar.ClickChatbot`, `StateProps.CreateSelectsNewSession` and
  `StateProps.AddChatbotActivates` describe a page without URL parameters.
  `Sidebar.UrlSessionOverridesClick` shows the snap-back for a session click.
- Gateway.SessionRowOf: the source reads the clock once per default (lib/database-service.ts:321-322); the
  model passes one reading `now` to both, so the two defaults always carry the same number.
- Types.UniqueIds: the source never checks id uniqueness. Ids come from the clock or the user id, so the
  properties that need it take it (or the freshness of a new id) as a precondition.

## Findings

| source | as written | input that shows it | evidently intended | confidence | as-written member | corrected member |
|---|---|---|---|---|---|---|
| components/settings-modal.tsx:30-48 | when the chatbot has no stored settings, opening the dialog keeps the form from the previously shown chatbot (the chat pane is reused across chatbots without a `key`) | open settings for chatbot `bot_1`, then for a chatbot `bot_2` just created by `addChatbot` (settings undefined): the form shows `bot_1` as bot id value, and saving stores it for `bot_2` | absent settings count as `{}`, so the form shows the chatbot's own defaults | medium, not executed | SettingsDialog.OpenKeepsStaleForm | SettingsDialog.OpenFixed |
| components/sidebar.tsx:293 | the "Logout" button calls the `onLogout` property, but the page passes its sign-out handler as `onSignOut` (app/page.tsx:435), so the click does nothing | a signed-in user clicks "Logout" | the button calls the page's `handleSignOut` | high, not executed | Sidebar.LogoutKeepsUserSignedIn | Sidebar.LogoutClickFixed |

=== FILE: gateway.dfy ===
/** The write side of the persistence gateway (lib/database-service.ts):
    `saveMessage`, `saveSession`, `saveChatbot`, `deleteChatbot` and
    `signOut`. The remote store is three tables keyed by id; each remote call
    either succeeds or fails with a `Fault`, which is an input here. Every
    operation resolves to a `Status` and never raises. */
module Gateway {
  import opened Types
  import opened Text

  datatype MessageRow = MessageRow(sessionId: string, role: string, content: string, timestamp: string)
  datatype SessionRow = SessionRow(chatbotId: string, name: string, threadId: string)
  datatype BotRow = BotRow(userId: string, name: string, settings: Settings)

  datatype Store = Store(
    chatbots: map<string, BotRow>,
    sessions: map<string, SessionRow>,
    messages: map<string, MessageRow>)

  /** How a remote call went wrong: the client returned an error object, or
      something was thrown — an `Error` with its message, or (`None`) any
      other value. */
  datatype Fault = DbError(message: string) | Thrown(error: Option<string>)

  /** `error.message`, or for a caught value that is not an `Error`,
      "Unknown error". */
  function FaultMessage(f: Fault): (msg: string)
    ensures f.DbError? ==> msg == f.message
    ensures f.Thrown? && f.error.Some? ==> msg == f.error.value
    ensures f == Thrown(None) ==> msg == "Unknown error"
  {
    match f
    case DbError(m) => m
    case Thrown(Some(m)) => m
    case Thrown(None) => "Unknown error"
  }

  /** A call's outcome: the store afterwards and the status returned. */
  datatype Saved = Saved(store: Store, status: Status)

  /** The identity lookup `saveChatbot` starts with. */
  datatype Auth = AuthFailed(message: string) | NoUser | SignedIn(userId: string)

  // ---------------------------------------------------------------------
  // saveMessage
  // ---------------------------------------------------------------------

  /** The checks of `saveMessage`, in order; the first that fails names
      the missing field. */
  function MessageProblem(sessionId: string, id: string, role: string, content: string): (e: Option<string>)
    ensures sessionId == "" ==> e == Some("Missing session ID")
    ensures sessionId != "" && id == "" ==> e == Some("Missing message ID")
    ensures sessionId != "" && id != "" && role == "" ==> e == Some("Missing message role")
    ensures sessionId != "" && id != "" && role != "" && content == "" ==> e == Some("Missing message content")
    ensures e.None? <==> sessionId != "" && id != "" && role != "" && content != ""
  {
    if sessionId == "" then Some("Missing session ID")
    else if id == "" then Some("Missing message ID")
    else if role == "" then Some("Missing message role")
    else if content == "" then Some("Missing message content")
    else None
  }

  /** The row `saveMessage` upserts; a missing timestamp becomes `now`. */
  function MessageRowOf(sessionId: string, m: Message, now: string): (row: MessageRow)
    ensures row.sessionId == sessionId && row.role == RoleName(m.role) && row.content == m.content
    ensures row.timestamp == (if m.timestamp != "" then m.timestamp else now)
  {
    MessageRow(sessionId, RoleName(m.role), m.content, if m.timestamp != "" then m.timestamp else now)
  }

  /** `saveMessage(sessionId, m)`. `now` is the current ISO time and
      `fault` the upsert's outcome. */
  function SaveMessage(store: Store, sessionId: string, m: Message, now: string, fault: Option<Fault>): (r: Saved)
    ensures r.status.Success? <==> MessageProblem(sessionId, m.id, RoleName(m.role), m.content).None? && fault.None?
    ensures MessageProblem(sessionId, m.id, RoleName(m.role), m.content).Some? ==>
      r == Saved(store, Failure(MessageProblem(sessionId, m.id, RoleName(m.role), m.content).value))
    ensures MessageProblem(sessionId, m.id, RoleName(m.role), m.content).None? && fault.Some? ==>
      r == Saved(store, Failure(FaultMessage(fault.value)))
    ensures r.status.Success? ==>
      && r.store.messages == store.messages[m.id := MessageRowOf(sessionId, m, now)]
      && r.store.chatbots == store.chatbots && r.store.sessions == store.sessions
  {
    match MessageProblem(sessionId, m.id, RoleName(m.role), m.content)
    case Some(e) => Saved(store, Failure(e))
    case None =>
      match fault
      case Some(f) => Saved(store, Failure(FaultMessage(f)))
      case None => Saved(store.(messages := store.messages[m.id := MessageRowOf(sessionId, m, now)]), Success)
  }

  // ---------------------------------------------------------------------
  // saveSession
  // ---------------------------------------------------------------------

  /** The row `saveSession` upserts: an empty name becomes "Chat <now>" and
      an empty thread id "thread_<now>", `now` being the millisecond clock. */
  function SessionRowOf(chatbotId: string, s: Session, now: nat): (row: SessionRow)
    ensures row.chatbotId == chatbotId
    ensures row.name == (if s.name != "" then s.name else "Chat " + NatToString(now))
    ensures row.threadId == (if s.threadId != "" then s.threadId else "thread_" + NatToString(now))
    ensures row.name != "" && row.threadId != ""
  {
    SessionRow(chatbotId,
               if s.name != "" then s.name else "Chat " + NatToString(now),
               if s.threadId != "" then s.threadId else "thread_" + NatToString(now))
  }

  function FaultAt(faults: seq<Option<Fault>>, i: nat): Option<Fault> {
    if i < |faults| then faults[i] else None
  }

  /** The loop of `saveSession` over the session's messages: each is saved
      in turn and its status is dropped. `faults[i]` is the outcome of the
      i-th upsert (none when missing). */
  function SaveMessages(store: Store, sessionId: string, msgs: seq<Message>, now: string, faults: seq<Option<Fault>>): (r: Store)
    ensures r.chatbots == store.chatbots && r.sessions == store.sessions
    ensures r.messages.Keys <= store.messages.Keys + (set i | 0 <= i < |msgs| :: msgs[i].id)
    ensures forall id :: id in store.messages && (forall i :: 0 <= i < |msgs| ==> msgs[i].id != id)
              ==> id in r.messages && r.messages[id] == store.messages[id]
    decreases |msgs|
  {
    if msgs == [] then store
    else
      var next := SaveMessage(store, sessionId, msgs[0], now, FaultAt(faults, 0)).store;
      var r := SaveMessages(next, sessionId, msgs[1..], now, if faults == [] then [] else faults[1..]);
      assert forall i :: 0 <= i < |msgs[1..]| ==> msgs[1..][i] == msgs[i + 1];
      r
  }

  /** `saveSession(chatbotId, s)`. `nowMs` and `nowIso` are the clock,
      `fault` the session upsert's outcome, `messageFaults` those of the
      message upserts. */
  function SaveSession(store: Store, chatbotId: string, s: Session, nowMs: nat, nowIso: string,
                       fault: Option<Fault>, messageFaults: seq<Option<Fault>>): (r: Saved)
    ensures chatbotId == "" ==> r == Saved(store, Failure("Missing chatbot ID"))
    ensures chatbotId != "" && s.id == "" ==> r == Saved(store, Failure("Missing session ID"))
    ensures chatbotId != "" && s.id != "" && fault.Some? ==> r == Saved(store, Failure(FaultMessage(fault.value)))
    ensures r.status.Success? <==> chatbotId != "" && s.id != "" && fault.None?
    ensures r.status.Success? ==>
      && r.store.sessions == store.sessions[s.id := SessionRowOf(chatbotId, s, nowMs)]
      && r.store.chatbots == store.chatbots
      && r.store.messages.Keys <= store.messages.Keys + (set i | 0 <= i < |s.messages| :: s.messages[i].id)
      && (forall id :: id in store.messages && (forall i :: 0 <= i < |s.messages| ==> s.messages[i].id != id)
            ==> id in r.store.messages && r.store.messages[id] == store.messages[id])
    ensures r.status.Success? ==>
      r.store.messages == SaveMessages(store.(sessions := store.sessions[s.id := SessionRowOf(chatbotId, s, nowMs)]),
                                       s.id, s.messages, nowIso, messageFaults).messages
  {
    if chatbotId == "" then Saved(store, Failure("Missing chatbot ID"))
    else if s.id == "" then Saved(store, Failure("Missing session ID"))
    else match fault
      case Some(f) => Saved(store, Failure(FaultMessage(f)))
      case None =>
        var written := store.(sessions := store.sessions[s.id := SessionRowOf(chatbotId, s, nowMs)]);
        Saved(SaveMessages(written, s.id, s.messages, nowIso, messageFaults), Success)
  }

  // ---------------------------------------------------------------------
  // saveChatbot, deleteChatbot, signOut
  // ---------------------------------------------------------------------

  /** `saveChatbot(bot)`: needs a signed-in user; stores `settings || {}`. */
  function SaveChatbot(store: Store, auth: Auth, bot: Chatbot, fault: Option<Fault>): (r: Saved)
    ensures auth.AuthFailed? ==> r == Saved(store, Failure("Auth error: " + auth.message))
    ensures auth.NoUser? ==> r == Saved(store, Failure("User not authenticated"))
    ensures auth.SignedIn? && fault.Some? ==> r == Saved(store, Failure(FaultMessage(fault.value)))
    ensures r.status.Success? <==> auth.SignedIn? && fault.None?
    ensures r.status.Success? ==>
      && r.store.chatbots == store.chatbots[bot.id := BotRow(auth.userId, bot.name, bot.settings.GetOr(EmptySettings))]
      && r.store.sessions == store.sessions && r.store.messages == store.messages
  {
    match auth
    case AuthFailed(e) => Saved(store, Failure("Auth error: " + e))
    case NoUser => Saved(store, Failure("User not authenticated"))
    case SignedIn(uid) =>
      match fault
      case Some(f) => Saved(store, Failure(FaultMessage(f)))
      case None => Saved(store.(chatbots := store.chatbots[bot.id := BotRow(uid, bot.name, bot.settings.GetOr(EmptySettings))]), Success)
  }

  /** `deleteChatbot(id)`: removes the chatbot row. */
  function DeleteChatbot(store: Store, id: string, fault: Option<Fault>): (r: Saved)
    ensures fault.Some? ==> r == Saved(store, Failure(FaultMessage(fault.value)))
    ensures fault.None? ==>
              && r.status.Success?
              && r.store.chatbots.Keys == store.chatbots.Keys - {id}
              && (forall k :: k in r.store.chatbots ==> r.store.chatbots[k] == store.chatbots[k])
              && r.store.sessions == store.sessions && r.store.messages == store.messages
  {
    match fault
    case Some(f) => Saved(store, Failure(FaultMessage(f)))
    case None => Saved(store.(chatbots := store.chatbots - {id}), Success)
  }

  /** `signOut()` */
  function SignOut(fault: Option<Fault>): (r: Status)
    ensures r.Success? <==> fault.None?
    ensures fault.Some? ==> r == Failure(FaultMessage(fault.value))
  {
    match fault
    case Some(f) => Failure(FaultMessage(f))
    case None => Success
  }

  // ---------------------------------------------------------------------
  // Properties
  // ---------------------------------------------------------------------

  /** A message typed with a role never trips the role check. */
  lemma TypedRoleIsNeverMissing(sessionId: string, m: Message)
    requires sessionId != "" && m.id != ""
    ensures MessageProblem(sessionId, m.id, RoleName(m.role), m.content) != Some("Missing message role")
  {
  }

  /** Saving the same message twice leaves exactly what saving it once
      leaves: the upsert is idempotent under retries. */
  lemma SaveMessageIdempotent(store: Store, sessionId: string, m: Message, now: string)
    ensures var once := SaveMessage(store, sessionId, m, now, None);
      SaveMessage(once.store, sessionId, m, now, None) == once
  {
  }

  /** Two saves under one id keep one row, holding the later write; no
      other row changes. */
  lemma SaveMessageLastWriteWins(store: Store, sessionId: string, m1: Message, m2: Message, now: string)
    requires m1.id == m2.id
    requires MessageProblem(sessionId, m1.id, RoleName(m1.role), m1.content).None?
    requires MessageProblem(sessionId, m2.id, RoleName(m2.role), m2.content).None?
    ensures var r := SaveMessage(SaveMessage(store, sessionId, m1, now, None).store, sessionId, m2, now, None).store;
      && r.messages.Keys == store.messages.Keys + {m2.id}
      && r.messages[m2.id] == MessageRowOf(sessionId, m2, now)
      && (forall id :: id in store.messages && id != m2.id ==> r.messages[id] == store.messages[id])
  {
  }

  /** A successful `saveSession` does not mean its messages were stored:
      a message with empty content is rejected, yet the call succeeds. */
  lemma SessionSuccessDoesNotImplyMessages(store: Store, nowMs: nat, nowIso: string)
    requires "m1" !in store.messages
    ensures var s := Session("s1", "Chat 1", [Message("m1", User, "", "t")], "th");
      var r := SaveSession(store, "bot", s, nowMs, nowIso, None, []);
      r.status.Success? && "m1" !in r.store.messages
  {
    var s := Session("s1", "Chat 1", [Message("m1", User, "", "t")], "th");
    var written := store.(sessions := store.sessions[s.id := SessionRowOf("bot", s, nowMs)]);
    assert SaveMessage(written, "s1", s.messages[0], nowIso, None).store == written;
  }

  /** No two messages share an id. */
  ghost predicate DistinctIds(msgs: seq<Message>) {
    forall a, b :: 0 <= a < |msgs| && 0 <= b < |msgs| && msgs[a].id == msgs[b].id ==> a == b
  }

  lemma DistinctTail(msgs: seq<Message>)
    requires DistinctIds(msgs) && |msgs| > 0
    ensures DistinctIds(msgs[1..])
    ensures forall j :: 0 <= j < |msgs[1..]| ==> msgs[1..][j].id != msgs[0].id
  {
    forall a, b | 0 <= a < |msgs[1..]| && 0 <= b < |msgs[1..]| && msgs[1..][a].id == msgs[1..][b].id
      ensures a == b
    {
      assert msgs[1..][a] == msgs[a + 1] && msgs[1..][b] == msgs[b + 1];
    }
    forall j | 0 <= j < |msgs[1..]|
      ensures msgs[1..][j].id != msgs[0].id
    {
      assert msgs[1..][j] == msgs[j + 1];
    }
  }

  /** Saving a session writes every valid message whose upsert succeeded,
      when the message ids are distinct. */
  lemma {:induction false} SaveMessagesStoresValid(store: Store, sessionId: string, msgs: seq<Message>, now: string,
                                                   faults: seq<Option<Fault>>, i: nat)
    requires i < |msgs| && sessionId != ""
    requires DistinctIds(msgs)
    requires MessageProblem(sessionId, msgs[i].id, RoleName(msgs[i].role), msgs[i].content).None?
    requires FaultAt(faults, i).None?
    ensures var r := SaveMessages(store, sessionId, msgs, now, faults);
      msgs[i].id in r.messages && r.messages[msgs[i].id] == MessageRowOf(sessionId, msgs[i], now)
    decreases |msgs|
  {
    var next := SaveMessage(store, sessionId, msgs[0], now, FaultAt(faults, 0)).store;
    var rest := if faults == [] then [] else faults[1..];
    DistinctTail(msgs);
    if i == 0 {
      assert next.messages[msgs[0].id] == MessageRowOf(sessionId, msgs[0], now);
    } else {
      assert msgs[1..][i - 1] == msgs[i];
      assert FaultAt(rest, i - 1) == FaultAt(faults, i);
      SaveMessagesStoresValid(next, sessionId, msgs[1..], now, rest, i - 1);
    }
  }
}

=== FILE: health.dfy ===
/** `checkDatabaseHealth` (lib/database-service.ts): probes each of the four
    tables and summarises. Each probe's outcome is an input. */
module Health {

  /** How one probe query went: it answered, it answered with an error, or
      it threw. */
  datatype Probe = Answered | Errored | Threw

  /** The two probes of one table; the second is only issued when the first
      answered. */
  datatype TableProbe = TableProbe(read: Probe, write: Probe)

  datatype TableHealth = TableHealth(tableExists: bool, canRead: bool, canWrite: bool)

  datatype Probes = Probes(userProfiles: TableProbe, chatbots: TableProbe, chatSessions: TableProbe, chatMessages: TableProbe)

  const TableNames: seq<string> := ["user_profiles", "chatbots", "chat_sessions", "chat_messages"]

  datatype Report = Report(
    success: bool,
    tables: seq<TableHealth>,
    allTablesExist: bool,
    allCanRead: bool,
    allCanWrite: bool)

  /** One table's block: all flags start false; a read that answers sets
      `exists` and `canRead`, and then the write probe decides `canWrite`.
      A read error or a throw leaves everything false. */
  function CheckTable(p: TableProbe): (h: TableHealth)
    ensures h.tableExists == h.canRead
    ensures h.canRead <==> p.read == Answered
    ensures h.canWrite <==> p.read == Answered && p.write == Answered
  {
    if p.read == Answered then TableHealth(true, true, p.write == Answered)
    else TableHealth(false, false, false)
  }

  function AllExist(ts: seq<TableHealth>): (b: bool)
    ensures b <==> forall i :: 0 <= i < |ts| ==> ts[i].tableExists
  {
    if ts == [] then true else ts[0].tableExists && AllExist(ts[1..])
  }

  function AllRead(ts: seq<TableHealth>): (b: bool)
    ensures b <==> forall i :: 0 <= i < |ts| ==> ts[i].canRead
  {
    if ts == [] then true else ts[0].canRead && AllRead(ts[1..])
  }

  function AllWrite(ts: seq<TableHealth>): (b: bool)
    ensures b <==> forall i :: 0 <= i < |ts| ==> ts[i].canWrite
  {
    if ts == [] then true else ts[0].canWrite && AllWrite(ts[1..])
  }

  function ProbeList(p: Probes): (ps: seq<TableProbe>)
    ensures |ps| == |TableNames|
  {
    [p.userProfiles, p.chatbots, p.chatSessions, p.chatMessages]
  }

  /** `checkDatabaseHealth()`: per table, `exists` equals `canRead` and
      `canWrite` needs a successful read; overall success holds exactly
      when every table passed both probes. */
  function CheckDatabaseHealth(p: Probes): (r: Report)
    ensures |r.tables| == |TableNames|
    ensures forall i :: 0 <= i < |r.tables| ==>
      && r.tables[i].tableExists == r.tables[i].canRead
      && (r.tables[i].canWrite ==> r.tables[i].canRead)
    ensures r.success <==> forall i :: 0 <= i < |r.tables| ==>
      r.tables[i].tableExists && r.tables[i].canRead && r.tables[i].canWrite
    ensures r.allTablesExist == r.allCanRead
    ensures r.allCanWrite ==> r.allCanRead
    ensures r.success == r.allCanWrite
    ensures r.success <==> forall i :: 0 <= i < |ProbeList(p)| ==>
      ProbeList(p)[i].read == Answered && ProbeList(p)[i].write == Answered
  {
    var ps := ProbeList(p);
    var ts := seq(|ps|, i requires 0 <= i < |ps| => CheckTable(ps[i]));
    var e := AllExist(ts);
    var rd := AllRead(ts);
    var w := AllWrite(ts);
    assert forall i :: 0 <= i < |ps| ==> (ts[i].canWrite <==> ps[i].read == Answered && ps[i].write == Answered);
    Report(e && rd && w, ts, e, rd, w)
  }
}

=== FILE: loader.dfy ===
/** `loadUserChatbots` (lib/database-service.ts): builds the chatbot tree
    from query answers, seeds three default chatbots for a user who has
    none, and degrades instead of failing. The remote answers are inputs:
    a failed query is an absent entry. */
module Loader {
  import opened Types
  import Gateway

  datatype BotRecord = BotRecord(id: string, name: string, settings: Option<Settings>)
  datatype SessionRecord = SessionRecord(id: string, name: string, threadId: string)

  /** What the remote side answers during one load.
      - `auth`: the identity lookup;
      - `profileFound`: whether the profile step returned user data;
      - `chatbotQuery`: the user's chatbots in creation order, `None` when
        the query failed;
      - `sessionQuery` / `messageQuery`: per chatbot / per session id, the
        rows found; an id that is absent is a failed query;
      - `seedFailures`: ids of default chatbots whose insert fails. */
  datatype Remote = Remote(
    auth: Gateway.Auth,
    profileFound: bool,
    chatbotQuery: Option<seq<BotRecord>>,
    sessionQuery: map<string, seq<SessionRecord>>,
    messageQuery: map<string, seq<Message>>,
    seedFailures: set<string>)

  /** The default chatbots, in insertion order: id suffix and name. */
  const Seeds: seq<(string, string)> := [("assistant", "Assistant"), ("coder", "Coder"), ("creative", "Creative")]

  function SeedBot(userId: string, seed: (string, string)): Chatbot {
    Chatbot(userId + "_" + seed.0, seed.1, [], Some(EmptySettings))
  }

  /** The seeding loop: each default chatbot whose insert succeeded, in
      order. */
  function SeedBots(userId: string, seeds: seq<(string, string)>, failures: set<string>): (r: seq<Chatbot>)
    ensures |r| <= |seeds|
    ensures forall b :: b in r <==> exists i :: 0 <= i < |seeds| && b == SeedBot(userId, seeds[i]) && b.id !in failures
    ensures (forall i :: 0 <= i < |seeds| ==> SeedBot(userId, seeds[i]).id !in failures) ==>
      |r| == |seeds| && forall i :: 0 <= i < |seeds| ==> r[i] == SeedBot(userId, seeds[i])
  {
    if seeds == [] then []
    else
      var b := SeedBot(userId, seeds[0]);
      var rest := SeedBots(userId, seeds[1..], failures);
      var r := if b.id in failures then rest else [b] + rest;
      SeedMembers(userId, seeds, failures, rest);
      if forall i :: 0 <= i < |seeds| ==> SeedBot(userId, seeds[i]).id !in failures then
        SeedsAllKept(userId, seeds, failures);
        SeedExact(userId, seeds, rest);
        r
      else r
  }

  /** One step of the loop keeps exactly the seeds whose insert succeeded:
      the head when it did, and what the rest of the loop kept. */
  lemma SeedMembers(userId: string, seeds: seq<(string, string)>, failures: set<string>, rest: seq<Chatbot>)
    requires seeds != []
    requires forall c :: c in rest <==> exists i :: 0 <= i < |seeds[1..]| && c == SeedBot(userId, seeds[1..][i]) && c.id !in failures
    ensures var b := SeedBot(userId, seeds[0]);
      forall c :: c in (if b.id in failures then rest else [b] + rest)
        <==> exists i :: 0 <= i < |seeds| && c == SeedBot(userId, seeds[i]) && c.id !in failures
  {
    var b := SeedBot(userId, seeds[0]);
    var r := if b.id in failures then rest else [b] + rest;
    forall c | c in r
      ensures exists i :: 0 <= i < |seeds| && c == SeedBot(userId, seeds[i]) && c.id !in failures
    {
      if c in rest {
        var i :| 0 <= i < |seeds[1..]| && c == SeedBot(userId, seeds[1..][i]) && c.id !in failures;
        assert seeds[1..][i] == seeds[i + 1];
      } else {
        assert c == SeedBot(userId, seeds[0]);
      }
    }
    forall c | exists i :: 0 <= i < |seeds| && c == SeedBot(userId, seeds[i]) && c.id !in failures
      ensures c in r
    {
      var i :| 0 <= i < |seeds| && c == SeedBot(userId, seeds[i]) && c.id !in failures;
      if i > 0 {
        assert c == SeedBot(userId, seeds[1..][i - 1]);
      }
    }
  }

  /** When no insert fails, none fails in the rest of the list either. */
  lemma SeedsAllKept(userId: string, seeds: seq<(string, string)>, failures: set<string>)
    requires seeds != []
    requires forall i :: 0 <= i < |seeds| ==> SeedBot(userId, seeds[i]).id !in failures
    ensures SeedBot(userId, seeds[0]).id !in failures
    ensures forall i :: 0 <= i < |seeds[1..]| ==> SeedBot(userId, seeds[1..][i]).id !in failures
  {
    forall i | 0 <= i < |seeds[1..]|
      ensures SeedBot(userId, seeds[1..][i]).id !in failures
    {
      assert seeds[1..][i] == seeds[i + 1];
    }
  }

  /** Prepending the head seed to the rest's exact list gives the exact list. */
  lemma SeedExact(userId: string, seeds: seq<(string, string)>, rest: seq<Chatbot>)
    requires seeds != []
    requires |rest| == |seeds[1..]| && forall i :: 0 <= i < |seeds[1..]| ==> rest[i] == SeedBot(userId, seeds[1..][i])
    ensures var r := [SeedBot(userId, seeds[0])] + rest;
      |r| == |seeds| && forall i :: 0 <= i < |seeds| ==> r[i] == SeedBot(userId, seeds[i])
  {
    var r := [SeedBot(userId, seeds[0])] + rest;
    forall i | 0 <= i < |seeds|
      ensures r[i] == SeedBot(userId, seeds[i])
    {
      if i > 0 { assert r[i] == rest[i - 1] && seeds[1..][i - 1] == seeds[i]; }
    }
  }

  /** A session with its messages; a failed message query gives none. */
  function LoadSession(remote: Remote, rec: SessionRecord): (s: Session)
    ensures s.id == rec.id && s.name == rec.name && s.threadId == rec.threadId
    ensures s.messages == (if rec.id in remote.messageQuery then remote.messageQuery[rec.id] else [])
  {
    Session(rec.id, rec.name, if rec.id in remote.messageQuery then remote.messageQuery[rec.id] else [], rec.threadId)
  }

  /** A chatbot with its sessions; a failed session query gives none.
      Stored settings default to `{}`. */
  function LoadBot(remote: Remote, rec: BotRecord): (b: Chatbot)
    ensures b.id == rec.id && b.name == rec.name && b.settings == Some(rec.settings.GetOr(EmptySettings))
    ensures rec.id !in remote.sessionQuery ==> b.sessions == []
    ensures rec.id in remote.sessionQuery ==>
      |b.sessions| == |remote.sessionQuery[rec.id]|
      && forall j :: 0 <= j < |b.sessions| ==> b.sessions[j] == LoadSession(remote, remote.sessionQuery[rec.id][j])
  {
    var settings := Some(rec.settings.GetOr(EmptySettings));
    if rec.id !in remote.sessionQuery then Chatbot(rec.id, rec.name, [], settings)
    else
      var recs := remote.sessionQuery[rec.id];
      Chatbot(rec.id, rec.name, seq(|recs|, j requires 0 <= j < |recs| => LoadSession(remote, recs[j])), settings)
  }

  /** `loadUserChatbots()` */
  function LoadUserChatbots(remote: Remote): (r: seq<Chatbot>)
    ensures !remote.auth.SignedIn? || !remote.profileFound || remote.chatbotQuery.None? ==> r == []
    ensures remote.auth.SignedIn? && remote.profileFound && remote.chatbotQuery == Some([]) ==>
      r == SeedBots(remote.auth.userId, Seeds, remote.seedFailures)
    ensures remote.auth.SignedIn? && remote.profileFound && remote.chatbotQuery.Some? && |remote.chatbotQuery.value| > 0 ==>
      |r| == |remote.chatbotQuery.value|
      && forall i :: 0 <= i < |r| ==> r[i] == LoadBot(remote, remote.chatbotQuery.value[i])
  {
    if !remote.auth.SignedIn? || !remote.profileFound then []
    else match remote.chatbotQuery
      case None => []
      case Some(recs) =>
        if |recs| == 0 then SeedBots(remote.auth.userId, Seeds, remote.seedFailures)
        else seq(|recs|, i requires 0 <= i < |recs| => LoadBot(remote, recs[i]))
  }

  lemma SeedIds(u: string)
    ensures SeedBot(u, Seeds[0]) == Chatbot(u + "_assistant", "Assistant", [], Some(EmptySettings))
    ensures SeedBot(u, Seeds[1]) == Chatbot(u + "_coder", "Coder", [], Some(EmptySettings))
    ensures SeedBot(u, Seeds[2]) == Chatbot(u + "_creative", "Creative", [], Some(EmptySettings))
    ensures u + "_assistant" != u + "_coder" && u + "_creative" != u + "_coder"
  {
    assert u + "_" + "assistant" == u + "_assistant";
    assert u + "_" + "coder" == u + "_coder";
    assert u + "_" + "creative" == u + "_creative";
    assert (u + "_assistant")[|u| + 1] != (u + "_coder")[|u| + 1];
    assert (u + "_creative")[|u| + 2] != (u + "_coder")[|u| + 2];
  }

  /** A first load with every insert succeeding yields Assistant, Coder and
      Creative, in that order, with ids `userId_assistant`, `userId_coder`,
      `userId_creative`, empty settings and no sessions. */
  lemma FirstLoadSeedsDefaults(remote: Remote)
    requires remote.auth.SignedIn? && remote.profileFound && remote.chatbotQuery == Some([])
    requires remote.seedFailures == {}
    ensures var u := remote.auth.userId;
      LoadUserChatbots(remote) == [
        Chatbot(u + "_assistant", "Assistant", [], Some(EmptySettings)),
        Chatbot(u + "_coder", "Coder", [], Some(EmptySettings)),
        Chatbot(u + "_creative", "Creative", [], Some(EmptySettings))]
  {
    var u := remote.auth.userId;
    var r := LoadUserChatbots(remote);
    SeedIds(u);
    assert |r| == 3 && r[0] == SeedBot(u, Seeds[0]) && r[1] == SeedBot(u, Seeds[1]) && r[2] == SeedBot(u, Seeds[2]);
  }

  /** A default chatbot whose insert failed is left out; the rest keep
      their order. */
  lemma FailedSeedOmitted(remote: Remote)
    requires remote.auth.SignedIn? && remote.profileFound && remote.chatbotQuery == Some([])
    requires remote.seedFailures == {remote.auth.userId + "_coder"}
    ensures var u := remote.auth.userId;
      LoadUserChatbots(remote) == [
        Chatbot(u + "_assistant", "Assistant", [], Some(EmptySettings)),
        Chatbot(u + "_creative", "Creative", [], Some(EmptySettings))]
  {
    var u := remote.auth.userId;
    var f := remote.seedFailures;
    SeedIds(u);
    assert Seeds[1..][1..][1..] == [];
    assert SeedBots(u, Seeds[1..][1..], f) == [SeedBot(u, Seeds[2])];
    assert SeedBots(u, Seeds[1..], f) == [SeedBot(u, Seeds[2])];
    assert SeedBots(u, Seeds, f) == [SeedBot(u, Seeds[0]), SeedBot(u, Seeds[2])];
  }
}

=== FILE: relay.dfy ===
/** The send handler of the chat pane (components/chat-interface.tsx): the
    send guard, the request body built from configurable key names, and the
    choice of the assistant's reply. The HTTP exchange itself is an input:
    `Response` is what came back. */
module Relay {
  import opened Types
  import opened Text
  import opened State
  import StateProps

  const NoWebhookReply := "Please configure a webhook URL in settings to receive responses."
  const NoResponseReply := "No response received"
  const ErrorReply := "Error: Failed to get a response. Please check your webhook configuration."

  const DefaultBotIdKey := "botId"
  const DefaultThreadIdKey := "threadId"
  const DefaultMessageKey := "message"
  const DefaultResponseKey := "server_response_message"

  /** The webhook's answer: `Failed` for a non-OK status or any thrown
      failure (transport error, body that is not JSON); otherwise the string
      fields of the parsed body. */
  datatype Response = Failed | Ok(body: map<string, string>)

  /** The POST the handler issues: target URL and JSON body. */
  datatype Request = Request(url: string, body: map<string, string>)

  /** Key names and bot id value in effect for one send. */
  datatype Mapping = Mapping(botIdKey: string, botIdValue: string, threadIdKey: string, messageKey: string, responseKey: string)

  /** Destructuring with defaults: a default replaces a setting only when the
      setting is undefined, so an empty string is kept as it is. */
  function MappingOf(s: Settings, chatbotId: string): (m: Mapping)
    ensures s.botIdKey.Some? ==> m.botIdKey == s.botIdKey.value
    ensures s.botIdKey.None? ==> m.botIdKey == DefaultBotIdKey
    ensures s.botIdValue.Some? ==> m.botIdValue == s.botIdValue.value
    ensures s.botIdValue.None? ==> m.botIdValue == chatbotId
    ensures s.threadIdKey.Some? ==> m.threadIdKey == s.threadIdKey.value
    ensures s.threadIdKey.None? ==> m.threadIdKey == DefaultThreadIdKey
    ensures s.messageKey.Some? ==> m.messageKey == s.messageKey.value
    ensures s.messageKey.None? ==> m.messageKey == DefaultMessageKey
    ensures s.responseKey.Some? ==> m.responseKey == s.responseKey.value
    ensures s.responseKey.None? ==> m.responseKey == DefaultResponseKey
  {
    Mapping(
      s.botIdKey.GetOr(DefaultBotIdKey),
      s.botIdValue.GetOr(chatbotId),
      s.threadIdKey.GetOr(DefaultThreadIdKey),
      s.messageKey.GetOr(DefaultMessageKey),
      s.responseKey.GetOr(DefaultResponseKey))
  }

  /** An object literal with computed keys: entries are written in order, so
      when keys collide the later entry wins. */
  function ObjectFromEntries(entries: seq<(string, string)>): (r: map<string, string>)
    ensures r.Keys == set i | 0 <= i < |entries| :: entries[i].0
    ensures forall i :: 0 <= i < |entries| && (forall j :: i < j < |entries| ==> entries[j].0 != entries[i].0)
              ==> r[entries[i].0] == entries[i].1
  {
    if entries == [] then map[]
    else
      var init := entries[..|entries| - 1];
      var last := entries[|entries| - 1];
      var prev := ObjectFromEntries(init);
      LastEntryWritten(entries, init, prev);
      prev[last.0 := last.1]
  }

  /** Writing the last entry over the object built from the others gives
      the object of the whole list: its keys are all the entries' keys, and
      an entry no later one overrides keeps its value. */
  lemma LastEntryWritten(entries: seq<(string, string)>, init: seq<(string, string)>, prev: map<string, string>)
    requires entries != [] && init == entries[..|entries| - 1]
    requires prev.Keys == set i | 0 <= i < |init| :: init[i].0
    requires forall i :: 0 <= i < |init| && (forall j :: i < j < |init| ==> init[j].0 != init[i].0)
               ==> prev[init[i].0] == init[i].1
    ensures var r := prev[entries[|entries| - 1].0 := entries[|entries| - 1].1];
      && r.Keys == (set i | 0 <= i < |entries| :: entries[i].0)
      && forall i :: 0 <= i < |entries| && (forall j :: i < j < |entries| ==> entries[j].0 != entries[i].0)
           ==> r[entries[i].0] == entries[i].1
  {
    var last := entries[|entries| - 1];
    EntryKeysSnoc(entries, init);
    forall i | 0 <= i < |init| && (forall j :: i < j < |entries| ==> entries[j].0 != entries[i].0)
      ensures prev[last.0 := last.1][entries[i].0] == entries[i].1
    {
      UnshadowedInInit(entries, init, i);
    }
  }

  /** The keys of a non-empty entry list are those of all but its last
      entry, plus the last entry's key. */
  lemma EntryKeysSnoc(entries: seq<(string, string)>, init: seq<(string, string)>)
    requires entries != [] && init == entries[..|entries| - 1]
    ensures (set i | 0 <= i < |entries| :: entries[i].0)
         == (set i | 0 <= i < |init| :: init[i].0) + {entries[|entries| - 1].0}
  {
    var all := set i | 0 <= i < |entries| :: entries[i].0;
    forall k | k in all
      ensures k in (set i | 0 <= i < |init| :: init[i].0) + {entries[|entries| - 1].0}
    {
      var i :| 0 <= i < |entries| && k == entries[i].0;
      if i < |init| { assert init[i] == entries[i]; }
    }
  }

  /** An entry that no later entry overrides, other than the last, is not
      overridden within the entries before the last either, and its key
      differs from the last key. */
  lemma UnshadowedInInit(entries: seq<(string, string)>, init: seq<(string, string)>, i: nat)
    requires i < |entries| - 1 && init == entries[..|entries| - 1]
    requires forall j :: i < j < |entries| ==> entries[j].0 != entries[i].0
    ensures init[i] == entries[i]
    ensures entries[|entries| - 1].0 != entries[i].0
    ensures forall j :: i < j < |init| ==> init[j].0 != init[i].0
  {
  }

  /** The request body: bot id, thread id and message under their
      configured keys, later entries overriding earlier ones. */
  function RequestBody(m: Mapping, threadId: string, input: string): (body: map<string, string>)
    ensures body.Keys == {m.botIdKey, m.threadIdKey, m.messageKey}
    ensures body[m.messageKey] == input
    ensures m.threadIdKey != m.messageKey ==> body[m.threadIdKey] == threadId
    ensures m.botIdKey != m.threadIdKey && m.botIdKey != m.messageKey ==> body[m.botIdKey] == m.botIdValue
  {
    var entries := [(m.botIdKey, m.botIdValue), (m.threadIdKey, threadId), (m.messageKey, input)];
    var body := ObjectFromEntries(entries);
    assert entries[2].0 == m.messageKey && entries[1].0 == m.threadIdKey && entries[0].0 == m.botIdKey;
    body
  }

  /** `session?.threadId || userId_sessionId` */
  function ThreadIdFor(session: Option<Session>, userId: string, sessionId: string): (t: string)
    ensures session.Some? && session.value.threadId != "" ==> t == session.value.threadId
    ensures session.None? || session.value.threadId == "" ==> t == userId + "_" + sessionId
  {
    if session.Some? && session.value.threadId != "" then session.value.threadId
    else userId + "_" + sessionId
  }

  /** `data[responseKey] || "No response received"` for a successful
      exchange, the fixed error text for a failed one. */
  function ReplyText(response: Response, responseKey: string): (t: string)
    ensures t != ""
    ensures response.Failed? ==> t == ErrorReply
    ensures response.Ok? && responseKey in response.body && response.body[responseKey] != "" ==> t == response.body[responseKey]
    ensures response.Ok? && (responseKey !in response.body || response.body[responseKey] == "") ==> t == NoResponseReply
  {
    match response
    case Failed => ErrorReply
    case Ok(body) => if responseKey in body && body[responseKey] != "" then body[responseKey] else NoResponseReply
  }

  /** A webhook is configured when `settings.webhookUrl` is truthy. */
  predicate HasWebhook(bot: Chatbot) {
    bot.settings.Some? && bot.settings.value.webhookUrl.Some? && bot.settings.value.webhookUrl.value != ""
  }

  function MessageIdAt(now: nat): string {
    "msg_" + NatToString(now)
  }

  /** What one press of "send" does: nothing, or the session it goes to, the
      request issued (if any), the user message and the assistant message. */
  datatype SendOutcome =
    | Ignored
    | Sent(sessionId: string, request: Option<Request>, userMessage: Message, reply: Message)

  /** `handleSendMessage`. `freshSessionId` is what the synchronous
      `createNewSession` returns when no session is selected; `sendNow` and
      `replyNow` are the clock readings before and after the exchange,
      `sendTime` and `replyTime` the matching ISO timestamps. */
  function HandleSend(
    bot: Chatbot, session: Option<Session>, userId: string, input: string, loading: bool,
    freshSessionId: string, sendNow: nat, sendTime: string, replyNow: nat, replyTime: string,
    response: Response): (r: SendOutcome)
    ensures r.Ignored? <==> Trim(input) == "" || loading
    ensures r.Sent? ==> r.userMessage == Message(MessageIdAt(sendNow), User, input, sendTime)
    ensures r.Sent? ==> r.reply.role == Assistant && r.reply.id == MessageIdAt(replyNow + 1) && r.reply.timestamp == replyTime
    ensures r.Sent? && session.Some? && session.value.id != "" ==> r.sessionId == session.value.id
    ensures r.Sent? && !(session.Some? && session.value.id != "") ==> r.sessionId == freshSessionId
    ensures r.Sent? ==> (r.request.Some? <==> HasWebhook(bot))
    ensures r.Sent? && !HasWebhook(bot) ==> r.reply.content == NoWebhookReply
    ensures r.Sent? && HasWebhook(bot) ==>
      var m := MappingOf(bot.settings.value, bot.id);
      && r.request == Some(Request(bot.settings.value.webhookUrl.value,
                                   RequestBody(m, ThreadIdFor(session, userId, r.sessionId), input)))
      && r.reply.content == ReplyText(response, m.responseKey)
  {
    if Trim(input) == "" || loading then Ignored
    else
      var sessionId := if session.Some? && session.value.id != "" then session.value.id else freshSessionId;
      var userMessage := Message(MessageIdAt(sendNow), User, input, sendTime);
      if HasWebhook(bot) then
        var settings := bot.settings.value;
        var m := MappingOf(settings, bot.id);
        var body := RequestBody(m, ThreadIdFor(session, userId, sessionId), input);
        Sent(sessionId, Some(Request(settings.webhookUrl.value, body)), userMessage,
             Message(MessageIdAt(replyNow + 1), Assistant, ReplyText(response, m.responseKey), replyTime))
      else
        Sent(sessionId, None, userMessage, Message(MessageIdAt(replyNow + 1), Assistant, NoWebhookReply, replyTime))
  }

  /** The two `addMessage` calls an accepted send makes. */
  function ApplySend(st: AppState, botId: string, outcome: SendOutcome): (r: AppState)
    ensures outcome.Ignored? ==> r == st
    ensures outcome.Sent? ==>
      r == AddMessage(AddMessage(st, botId, outcome.sessionId, outcome.userMessage), botId, outcome.sessionId, outcome.reply)
  {
    match outcome
    case Ignored => st
    case Sent(sid, _, u, a) => AddMessage(AddMessage(st, botId, sid, u), botId, sid, a)
  }

  /** An accepted send into an existing session appends exactly the user
      message and then one assistant message to that session, whatever the
      webhook answered. */
  lemma SendAppendsPair(st: AppState, k: nat, j: nat, userId: string, input: string,
                        freshId: string, sendNow: nat, sendTime: string, replyNow: nat, replyTime: string,
                        response: Response)
    requires UniqueIds(st.chatbots) && k < |st.chatbots|
    requires UniqueSessionIds(st.chatbots[k].sessions) && j < |st.chatbots[k].sessions|
    requires st.chatbots[k].sessions[j].id != ""
    requires Trim(input) != ""
    ensures var bot := st.chatbots[k];
      var session := bot.sessions[j];
      var out := HandleSend(bot, Some(session), userId, input, false, freshId, sendNow, sendTime, replyNow, replyTime, response);
      var found := FindChatbot(ApplySend(st, bot.id, out).chatbots, bot.id);
      && out.Sent?
      && out.userMessage.content == input
      && found.Some?
      && FindSession(found.value.sessions, session.id).Some?
      && FindSession(found.value.sessions, session.id).value.messages == session.messages + [out.userMessage, out.reply]
  {
    var bot := st.chatbots[k];
    var session := bot.sessions[j];
    var out := HandleSend(bot, Some(session), userId, input, false, freshId, sendNow, sendTime, replyNow, replyTime, response);
    assert out.sessionId == session.id;
    StateProps.AppendTwiceLandsAtEnd(st.chatbots, k, j, out.userMessage, out.reply);
  }

  /** When the thread id key and the message key coincide, the message
      overwrites the thread id: the body has that key once, holding the
      input. */
  lemma CollidingKeysLaterWins(m: Mapping, threadId: string, input: string)
    requires m.threadIdKey == m.messageKey && m.botIdKey != m.messageKey
    ensures RequestBody(m, threadId, input) == map[m.botIdKey := m.botIdValue, m.messageKey := input]
  {
  }

  /** The example exchange: keys "b", "m", "r" and a reply {"r": "hello"}
      give the body {"b": id, "threadId": thread, "m": "hi"} and the reply
      "hello". */
  lemma ExampleHelloExchange(botId: string, thread: string)
    ensures var m := MappingOf(Settings(Some("https://hook"), Some("b"), None, None, Some("m"), Some("r")), botId);
      var body := RequestBody(m, thread, "hi");
      && body.Keys == {"b", "threadId", "m"}
      && body["b"] == botId && body["threadId"] == thread && body["m"] == "hi"
      && ReplyText(Ok(map["r" := "hello"]), m.responseKey) == "hello"
  {
    var m := MappingOf(Settings(Some("https://hook"), Some("b"), None, None, Some("m"), Some("r")), botId);
    assert m == Mapping("b", botId, "threadId", "m", "r");
    assert "b" != "threadId" && "b" != "m" && "threadId" != "m";
  }

  /** A failing endpoint yields the fixed error reply; an empty body the
      "no response" placeholder. */
  lemma ExampleFailures(bot: Chatbot, session: Session, input: string)
    requires HasWebhook(bot) && Trim(input) != ""
    ensures HandleSend(bot, Some(session), "u", input, false, "", 0, "", 0, "", Failed).reply.content == ErrorReply
    ensures HandleSend(bot, Some(session), "u", input, false, "", 0, "", 0, "", Ok(map[])).reply.content == NoResponseReply
  {
    var failed := HandleSend(bot, Some(session), "u", input, false, "", 0, "", 0, "", Failed);
    var empty := HandleSend(bot, Some(session), "u", input, false, "", 0, "", 0, "", Ok(map[]));
    assert failed.Sent? && empty.Sent?;
    var m := MappingOf(bot.settings.value, bot.id);
    assert failed.reply.content == ReplyText(Failed, m.responseKey);
    assert empty.reply.content == ReplyText(Ok(map[]), m.responseKey);
  }
}

=== FILE: settings_dialog.dfy ===
/** The chatbot settings dialog (components/settings-modal.tsx): a password
    gate in front of a six-field form that is filled from the chatbot's
    stored settings, with `||` defaults, whenever the dialog opens. */
module SettingsDialog {
  import opened Types
  import Relay

  /** The form: every field is a plain string. */
  datatype Form = Form(
    webhookUrl: string,
    botIdKey: string,
    botIdValue: string,
    threadIdKey: string,
    messageKey: string,
    responseKey: string)

  datatype Dialog = Dialog(unlocked: bool, password: string, passwordError: string, form: Form)

  /** The fallback password when none is configured at build time. */
  const FallbackPassword := "hdm123"
  const WrongPasswordText := "Incorrect password"

  /** `o || d` on an optional string: both undefined and "" fall back. */
  function OrElse(o: Option<string>, d: string): (r: string)
    ensures o.Some? && o.value != "" ==> r == o.value
    ensures o.None? || o.value == "" ==> r == d
  {
    if o.Some? && o.value != "" then o.value else d
  }

  /** The form the dialog starts with when first mounted for `chatbotId`. */
  function DefaultForm(chatbotId: string): (f: Form)
    ensures f.webhookUrl == ""
    ensures f.botIdKey == Relay.DefaultBotIdKey && f.botIdValue == chatbotId
    ensures f.threadIdKey == Relay.DefaultThreadIdKey && f.messageKey == Relay.DefaultMessageKey
    ensures f.responseKey == Relay.DefaultResponseKey
  {
    Form("", Relay.DefaultBotIdKey, chatbotId, Relay.DefaultThreadIdKey, Relay.DefaultMessageKey, Relay.DefaultResponseKey)
  }

  function InitialDialog(chatbotId: string): (d: Dialog)
    ensures !d.unlocked && d.password == "" && d.passwordError == ""
    ensures d.form == DefaultForm(chatbotId)
  {
    Dialog(false, "", "", DefaultForm(chatbotId))
  }

  /** The form is one the normalisation can produce: the four key names are
      non-empty and the bot id value is only empty when the chatbot id is. */
  predicate Normal(f: Form, chatbotId: string) {
    && f.botIdKey != "" && f.threadIdKey != "" && f.messageKey != "" && f.responseKey != ""
    && (f.botIdValue != "" || chatbotId == "")
  }

  /** Stored settings turned into form values, each missing or empty field
      replaced by its default. */
  function Normalize(s: Settings, chatbotId: string): (f: Form)
    ensures Normal(f, chatbotId)
    ensures s.webhookUrl.Some? ==> f.webhookUrl == s.webhookUrl.value
    ensures s.webhookUrl.None? ==> f.webhookUrl == ""
    ensures s.botIdKey.Some? && s.botIdKey.value != "" ==> f.botIdKey == s.botIdKey.value
    ensures s.botIdValue.Some? && s.botIdValue.value != "" ==> f.botIdValue == s.botIdValue.value
    ensures s.threadIdKey.Some? && s.threadIdKey.value != "" ==> f.threadIdKey == s.threadIdKey.value
    ensures s.messageKey.Some? && s.messageKey.value != "" ==> f.messageKey == s.messageKey.value
    ensures s.responseKey.Some? && s.responseKey.value != "" ==> f.responseKey == s.responseKey.value
    ensures s.botIdKey.None? || s.botIdKey.value == "" ==> f.botIdKey == Relay.DefaultBotIdKey
    ensures s.botIdValue.None? || s.botIdValue.value == "" ==> f.botIdValue == chatbotId
    ensures s.threadIdKey.None? || s.threadIdKey.value == "" ==> f.threadIdKey == Relay.DefaultThreadIdKey
    ensures s.messageKey.None? || s.messageKey.value == "" ==> f.messageKey == Relay.DefaultMessageKey
    ensures s.responseKey.None? || s.responseKey.value == "" ==> f.responseKey == Relay.DefaultResponseKey
  {
    Form(
      OrElse(s.webhookUrl, ""),
      OrElse(s.botIdKey, Relay.DefaultBotIdKey),
      OrElse(s.botIdValue, chatbotId),
      OrElse(s.threadIdKey, Relay.DefaultThreadIdKey),
      OrElse(s.messageKey, Relay.DefaultMessageKey),
      OrElse(s.responseKey, Relay.DefaultResponseKey))
  }

  /** What "Save Settings" hands to the page: every field, as a string. */
  function ToSettings(f: Form): (s: Settings)
    ensures s.webhookUrl == Some(f.webhookUrl) && s.botIdKey == Some(f.botIdKey)
    ensures s.botIdValue == Some(f.botIdValue) && s.threadIdKey == Some(f.threadIdKey)
    ensures s.messageKey == Some(f.messageKey) && s.responseKey == Some(f.responseKey)
  {
    Settings(Some(f.webhookUrl), Some(f.botIdKey), Some(f.botIdValue), Some(f.threadIdKey), Some(f.messageKey), Some(f.responseKey))
  }

  /** Saving a form and reopening the dialog shows the same form exactly
      when the form was already normal. */
  lemma SaveReopenRoundTrip(f: Form, chatbotId: string)
    ensures Normalize(ToSettings(f), chatbotId) == f <==> Normal(f, chatbotId)
  {
  }

  /** Normalising twice is normalising once. */
  lemma NormalizeIdempotent(s: Settings, chatbotId: string)
    ensures Normalize(ToSettings(Normalize(s, chatbotId)), chatbotId) == Normalize(s, chatbotId)
  {
    SaveReopenRoundTrip(Normalize(s, chatbotId), chatbotId);
  }

  /** Absent settings normalise to the defaults. */
  lemma EmptySettingsGiveDefaults(chatbotId: string)
    ensures Normalize(EmptySettings, chatbotId) == DefaultForm(chatbotId)
  {
  }

  /** Opening the dialog as written: the gate closes again and, when the
      chatbot has stored settings, the form is refilled from them. A chatbot
      without stored settings leaves the form as it was. */
  function Open(d: Dialog, bot: Chatbot): (r: Dialog)
    ensures !r.unlocked && r.password == "" && r.passwordError == ""
    ensures bot.settings.Some? ==> r.form == Normalize(bot.settings.value, bot.id)
    ensures bot.settings.None? ==> r.form == d.form
  {
    var form := if bot.settings.Some? then Normalize(bot.settings.value, bot.id) else d.form;
    Dialog(false, "", "", form)
  }

  /** The form opened for chatbot `b` after the dialog was used for `a`,
      when `b` has no stored settings, still carries `a`'s values; saving it
      stores `a`'s id as `b`'s bot id value. */
  lemma OpenKeepsStaleForm()
    ensures var a := Chatbot("bot_1", "A", [], Some(EmptySettings));
      var b := Chatbot("bot_2", "B", [], None);
      var d := Open(Open(InitialDialog(a.id), a), b);
      && d.form.botIdValue == "bot_1"
      && ToSettings(d.form).botIdValue == Some(a.id)
      && ToSettings(d.form).botIdValue != Some(b.id)
  {
    EmptySettingsGiveDefaults("bot_1");
  }

  /** Opening as evidently intended: absent settings count as `{}`, so the
      form is the chatbot's defaults. */
  function OpenFixed(d: Dialog, bot: Chatbot): (r: Dialog)
    ensures !r.unlocked && r.password == "" && r.passwordError == ""
    ensures bot.settings.None? ==> r.form == DefaultForm(bot.id)
    ensures bot.settings.Some? ==> r == Open(d, bot)
  {
    EmptySettingsGiveDefaults(bot.id);
    Dialog(false, "", "", Normalize(bot.settings.GetOr(EmptySettings), bot.id))
  }

  /** The corrected dialog depends only on the chatbot it is opened for, and
      always shows a normal form for it. */
  lemma OpenFixedIgnoresHistory(d1: Dialog, d2: Dialog, bot: Chatbot)
    ensures OpenFixed(d1, bot) == OpenFixed(d2, bot)
    ensures Normal(OpenFixed(d1, bot).form, bot.id)
  {
  }

  /** The password in effect: the configured one when it is set and not
      empty, otherwise the fallback "hdm123". */
  function CorrectPassword(configured: Option<string>): (p: string)
    ensures p != ""
    ensures configured.Some? && configured.value != "" ==> p == configured.value
    ensures configured.None? || configured.value == "" ==> p == FallbackPassword
  {
    OrElse(configured, FallbackPassword)
  }

  /** `handleAuthenticate`: a matching password unlocks the form and clears
      the error; anything else shows "Incorrect password" and stays locked
      (or unlocked, if it already was). */
  function Authenticate(d: Dialog, configured: Option<string>): (r: Dialog)
    ensures r.form == d.form && r.password == d.password
    ensures d.password == CorrectPassword(configured) ==> r.unlocked && r.passwordError == ""
    ensures d.password != CorrectPassword(configured) ==> r.unlocked == d.unlocked && r.passwordError == WrongPasswordText
    ensures configured.None? || configured.value == "" ==>
      (r.unlocked <==> d.unlocked || d.password == FallbackPassword)
    ensures configured.Some? && configured.value != "" ==>
      (r.unlocked <==> d.unlocked || d.password == configured.value)
  {
    if d.password == CorrectPassword(configured) then d.(unlocked := true, passwordError := "")
    else d.(passwordError := WrongPasswordText)
  }

  /** A freshly opened dialog is unlocked by one attempt exactly when the
      typed password is the one in effect; an empty password never is. */
  lemma GateOpensOnlyOnMatch(d: Dialog, bot: Chatbot, typed: string, configured: Option<string>)
    ensures Authenticate(Open(d, bot).(password := typed), configured).unlocked <==> typed == CorrectPassword(configured)
    ensures !Authenticate(Open(d, bot).(password := ""), configured).unlocked
  {
  }

  /** `handleSaveSettings`: all six form fields go to the page unchanged and
      the dialog closes. The button is only shown once unlocked. */
  function SaveSettings(d: Dialog): (r: (Settings, bool))
    requires d.unlocked
    ensures r.1 == false
    ensures r.0.webhookUrl == Some(d.form.webhookUrl) && r.0.botIdKey == Some(d.form.botIdKey)
    ensures r.0.threadIdKey == Some(d.form.threadIdKey) && r.0.messageKey == Some(d.form.messageKey)
    ensures r.0.responseKey == Some(d.form.responseKey)
    ensures forall chatbotId :: Normalize(r.0, chatbotId) == d.form <==> Normal(d.form, chatbotId)
    ensures r.0.botIdValue == Some(d.form.botIdValue)
  {
    assert forall chatbotId :: Normalize(ToSettings(d.form), chatbotId) == d.form <==> Normal(d.form, chatbotId) by {
      forall chatbotId ensures Normalize(ToSettings(d.form), chatbotId) == d.form <==> Normal(d.form, chatbotId) {
        SaveReopenRoundTrip(d.form, chatbotId);
      }
    }
    (ToSettings(d.form), false)
  }

  /** Saved settings drive the send handler with the form's values as they
      stand; an emptied key field is sent as the empty key, although the
      dialog shows the default for it when reopened. */
  lemma SavedFormDrivesRequest(f: Form, chatbotId: string)
    ensures Relay.MappingOf(ToSettings(f), chatbotId)
      == Relay.Mapping(f.botIdKey, f.botIdValue, f.threadIdKey, f.messageKey, f.responseKey)
    ensures f.botIdKey == "" ==>
      && Relay.MappingOf(ToSettings(f), chatbotId).botIdKey == ""
      && Normalize(ToSettings(f), chatbotId).botIdKey == Relay.DefaultBotIdKey
  {
  }
}

=== FILE: sidebar.dfy ===
/** The sidebar's rules (components/sidebar.tsx): the add and rename forms,
    the minimum-one-chatbot guard on delete, the map of expanded chatbots,
    and what clicking a chatbot or a session selects. */
module Sidebar {
  import opened Types
  import opened Text
  import opened State
  import StateProps

  // ---------------------------------------------------------------------
  // Add and rename forms
  // ---------------------------------------------------------------------

  /** The add-chatbot form: whether it is shown, and the typed name. */
  datatype AddForm = AddForm(shown: bool, name: string)

  /** `handleAddChatbot`: submits the trimmed name and closes the form; a
      blank name does nothing. */
  function HandleAddChatbot(f: AddForm): (r: (AddForm, Option<string>))
    ensures Trim(f.name) == "" ==> r == (f, None)
    ensures Trim(f.name) != "" ==> r == (AddForm(false, ""), Some(Trim(f.name)))
  {
    var name := Trim(f.name);
    if name == "" then (f, None) else (AddForm(false, ""), Some(name))
  }

  /** The rename form: the chatbot being edited (if any) and the typed name. */
  datatype EditForm = EditForm(editingId: Option<string>, editingName: string)

  /** `handleStartEdit` */
  function StartEdit(bot: Chatbot): (e: EditForm)
    ensures e.editingId == Some(bot.id) && e.editingName == bot.name
  {
    EditForm(Some(bot.id), bot.name)
  }

  /** `handleSaveEdit`: renames to the trimmed name when an id is being
      edited and the name is not blank; the form is cleared either way. */
  function HandleSaveEdit(e: EditForm): (r: (EditForm, Option<(string, string)>))
    ensures r.0 == EditForm(None, "")
    ensures r.1.Some? <==> e.editingId.Some? && e.editingId.value != "" && Trim(e.editingName) != ""
    ensures r.1.Some? ==> r.1.value == (e.editingId.value, Trim(e.editingName))
  {
    var rename := if e.editingId.Some? && e.editingId.value != "" && Trim(e.editingName) != ""
                  then Some((e.editingId.value, Trim(e.editingName))) else None;
    (EditForm(None, ""), rename)
  }

  /** Saving an edit that was started and left as it was renames the
      chatbot to its own trimmed name, so a name without surrounding white
      space is written back unchanged. */
  lemma SaveUntouchedEdit(bot: Chatbot)
    requires bot.id != "" && Trim(bot.name) != ""
    ensures HandleSaveEdit(StartEdit(bot)).1 == Some((bot.id, Trim(bot.name)))
    ensures bot.name == [] || (!IsSpace(bot.name[0]) && !IsSpace(bot.name[|bot.name| - 1])) ==>
      HandleSaveEdit(StartEdit(bot)).1 == Some((bot.id, bot.name))
  {
    if bot.name == [] || (!IsSpace(bot.name[0]) && !IsSpace(bot.name[|bot.name| - 1])) {
      TrimFixesTrimmed(bot.name);
    }
  }

  // ---------------------------------------------------------------------
  // Delete guard
  // ---------------------------------------------------------------------

  /** The delete button is only rendered when more than one chatbot exists. */
  predicate OffersDelete(count: nat) {
    count > 1
  }

  datatype RemoveDecision =
    | Remove(id: string)
    | Declined          // the confirmation was dismissed
    | Refused           // the "at least one chatbot" alert

  /** `handleRemoveChatbot` */
  function HandleRemoveChatbot(count: nat, id: string, confirmed: bool): (d: RemoveDecision)
    ensures d.Remove? <==> count > 1 && confirmed
    ensures d.Remove? ==> d.id == id
    ensures d.Refused? <==> count <= 1
  {
    if count > 1 then (if confirmed then Remove(id) else Declined) else Refused
  }

  // ---------------------------------------------------------------------
  // Expanded map
  // ---------------------------------------------------------------------

  function IdSet(bots: seq<Chatbot>): (s: set<string>)
    ensures forall id :: id in s <==> exists i :: 0 <= i < |bots| && bots[i].id == id
  {
    set i | 0 <= i < |bots| :: bots[i].id
  }

  /** The initial map: `reduce` marking every chatbot expanded. */
  function InitExpanded(bots: seq<Chatbot>): (m: map<string, bool>)
    ensures m.Keys == IdSet(bots)
    ensures forall id :: id in m ==> m[id]
  {
    if bots == [] then map[]
    else
      var init := bots[..|bots| - 1];
      assert IdSet(bots) == IdSet(init) + {bots[|bots| - 1].id} by {
        assert forall i :: 0 <= i < |init| ==> init[i] == bots[i];
      }
      InitExpanded(init)[bots[|bots| - 1].id := true]
  }

  /** The effect on a change of the chatbot list: `forEach` adding each
      unseen id as expanded; existing entries, collapsed ones included, are
      kept. */
  function SyncExpanded(prev: map<string, bool>, bots: seq<Chatbot>): (m: map<string, bool>)
    ensures m.Keys == prev.Keys + IdSet(bots)
    ensures forall id :: id in prev ==> m[id] == prev[id]
    ensures forall id :: id in m && id !in prev ==> m[id]
    decreases |bots|
  {
    if bots == [] then prev
    else
      var next := if bots[0].id in prev then prev else prev[bots[0].id := true];
      assert IdSet(bots) == {bots[0].id} + IdSet(bots[1..]) by {
        assert forall i :: 0 <= i < |bots[1..]| ==> bots[1..][i] == bots[i + 1];
      }
      SyncExpanded(next, bots[1..])
  }

  /** `toggleChatbotExpanded`: flips one entry; an absent entry reads as
      undefined and becomes `true`. */
  function Toggle(m: map<string, bool>, id: string): (r: map<string, bool>)
    ensures r.Keys == m.Keys + {id}
    ensures r[id] == !(id in m && m[id])
    ensures forall k :: k in m && k != id ==> r[k] == m[k]
  {
    m[id := !(id in m && m[id])]
  }

  lemma ToggleTwiceRestores(m: map<string, bool>, id: string)
    requires id in m
    ensures Toggle(Toggle(m, id), id) == m
  {
  }

  /** Re-running the sync on an unchanged list changes nothing. */
  lemma {:induction false} SyncIdempotent(prev: map<string, bool>, bots: seq<Chatbot>)
    ensures SyncExpanded(SyncExpanded(prev, bots), bots) == SyncExpanded(prev, bots)
  {
    var once := SyncExpanded(prev, bots);
    var twice := SyncExpanded(once, bots);
    assert IdSet(bots) <= once.Keys;
    assert twice.Keys == once.Keys;
    forall id | id in twice
      ensures twice[id] == once[id]
    {
    }
  }

  /** Syncing from the empty map gives the initial map. */
  lemma {:induction false} SyncFromEmptyIsInit(bots: seq<Chatbot>)
    ensures SyncExpanded(map[], bots) == InitExpanded(bots)
  {
    var fromEmpty := SyncExpanded(map[], bots);
    var init := InitExpanded(bots);
    assert fromEmpty.Keys == init.Keys;
    forall id | id in fromEmpty
      ensures fromEmpty[id] == init[id]
    {
    }
  }

  // ---------------------------------------------------------------------
  // Clicks
  // ---------------------------------------------------------------------

  /** A falsy active session id: none, or empty. */
  predicate NoActiveSession(sessionId: Option<string>) {
    sessionId.None? || sessionId.value == ""
  }

  /** Clicking the name of chatbot `i`: it becomes active; with no sessions
      one is created (and selected); otherwise its first session is selected
      only when no session is active. */
  function ClickChatbot(st: AppState, i: nat, now: nat, saved: Status): (r: Step)
    requires i < |st.chatbots|
    ensures r.state.activeChatbotId == st.chatbots[i].id
    ensures |st.chatbots[i].sessions| == 0 ==>
      var created := CreateNewSession(st, st.chatbots[i].id, now, saved);
      r == created.0 && r.state.activeSessionId == Some(created.1)
    ensures |st.chatbots[i].sessions| > 0 ==> r.state.chatbots == st.chatbots && r.notice.None?
    ensures |st.chatbots[i].sessions| > 0 ==>
      && r.state.userId == st.userId
      && r.state.authenticated == st.authenticated && r.state.initialized == st.initialized
    ensures |st.chatbots[i].sessions| > 0 && NoActiveSession(st.activeSessionId) ==>
      r.state.activeSessionId == Some(st.chatbots[i].sessions[0].id)
    ensures |st.chatbots[i].sessions| > 0 && !NoActiveSession(st.activeSessionId) ==>
      r.state.activeSessionId == st.activeSessionId
  {
    var bot := st.chatbots[i];
    if |bot.sessions| == 0 then
      // `createNewSession` selects the chatbot and the new session itself;
      // the handler's own two selections repeat those.
      CreateNewSession(st, bot.id, now, saved).0
    else if NoActiveSession(st.activeSessionId) then
      Step(st.(activeChatbotId := bot.id, activeSessionId := Some(bot.sessions[0].id)), None)
    else Step(st.(activeChatbotId := bot.id), None)
  }

  /** Clicking session `j` of chatbot `i` selects both; the tree, the
      user and the flags stay as they were. */
  function ClickSession(st: AppState, i: nat, j: nat): (r: AppState)
    requires i < |st.chatbots| && j < |st.chatbots[i].sessions|
    ensures r.chatbots == st.chatbots && r.userId == st.userId
    ensures r.authenticated == st.authenticated && r.initialized == st.initialized
    ensures r.activeChatbotId == st.chatbots[i].id
    ensures ActiveChatbot(r.chatbots, r.activeChatbotId).Some?
    ensures ActiveChatbot(r.chatbots, r.activeChatbotId).value.id == st.chatbots[i].id
    ensures r.activeSessionId == Some(st.chatbots[i].sessions[j].id)
  {
    st.(activeChatbotId := st.chatbots[i].id, activeSessionId := Some(st.chatbots[i].sessions[j].id))
  }

  /** With unique ids, a clicked session is the active session afterwards. */
  lemma ClickSessionSelects(st: AppState, i: nat, j: nat)
    requires UniqueIds(st.chatbots) && i < |st.chatbots|
    requires UniqueSessionIds(st.chatbots[i].sessions) && j < |st.chatbots[i].sessions|
    requires st.chatbots[i].sessions[j].id != ""
    ensures var r := ClickSession(st, i, j);
      ActiveSession(r.chatbots, r.activeChatbotId, r.activeSessionId) == Some(st.chatbots[i].sessions[j])
  {
    FindUnique(st.chatbots, i);
    FindSessionUnique(st.chatbots[i].sessions, j);
  }
  /** The URL-parameter effect runs again whenever the active ids change:
      on a page opened with a `session` parameter, clicking another session
      is undone at once and the parameter's session is active again. */
  lemma UrlSessionOverridesClick(st: AppState, i: nat, j: nat, urlSession: string)
    requires st.initialized && i < |st.chatbots| && j < |st.chatbots[i].sessions|
    requires urlSession != "" && urlSession != st.chatbots[i].sessions[j].id
    ensures ClickSession(st, i, j).activeSessionId == Some(st.chatbots[i].sessions[j].id)
    ensures ApplyUrlParams(ClickSession(st, i, j), None, Some(urlSession)).activeSessionId == Some(urlSession)
  {
  }


  // ---------------------------------------------------------------------
  // Logout button
  // ---------------------------------------------------------------------

  /** The logout button as wired: the page hands its sign-out handler over
      as `onSignOut`, while the button calls the `onLogout` property, which
      is never set, so a click has no effect. `result` is what signing out
      would have answered; it is never consulted, because no sign-out call
      is made, and it is kept so the click can be compared with
      `LogoutClickFixed` on the same input. */
  function LogoutClick(st: AppState, result: Status): (r: Step)
    ensures r.state.authenticated == st.authenticated && r.state.chatbots == st.chatbots
    ensures r.state == st
    ensures r.notice.None?
  {
    Step(st, None)
  }

  /** A signed-in user who clicks "Logout" stays signed in with their
      chatbots, even when signing out would have succeeded. */
  lemma LogoutKeepsUserSignedIn(st: AppState)
    requires st.authenticated
    ensures LogoutClick(st, Success).state.authenticated
    ensures LogoutClick(st, Success).state != LogoutClickFixed(st, Success).state
  {
  }

  /** The logout button wired to the page's sign-out handler. */
  function LogoutClickFixed(st: AppState, result: Status): (r: Step)
    ensures result.Success? ==> !r.state.authenticated && r.state.chatbots == [] && r.state.userId == ""
    ensures result.Success? ==> !r.state.initialized && r.notice.None?
    ensures result.Success? ==>
      r.state.activeChatbotId == st.activeChatbotId && r.state.activeSessionId == st.activeSessionId
    ensures result.Failure? ==> r.notice == FailureNotice("sign out", result)
    ensures result.Failure? ==> r.state == st && r.notice.Some?
  {
    HandleSignOut(st, result)
  }

  // ---------------------------------------------------------------------
  // The chatbot list never empties through the sidebar
  // ---------------------------------------------------------------------

  /** The chatbot-level actions the sidebar offers, with the inputs the
      environment supplies (clock, confirmation, gateway answers). */
  datatype Action =
    | AddAction(form: AddForm, now: nat, saved: Status)
    | RenameAction(edit: EditForm, renamed: Status)
    | DeleteAction(id: string, confirmed: bool, deleted: Status)

  /** One action as the sidebar and the page carry it out. */
  function Perform(st: AppState, a: Action): (r: AppState)
    ensures a.DeleteAction? && !OffersDelete(|st.chatbots|) ==> r == st
  {
    match a
    case AddAction(form, now, saved) =>
      (match HandleAddChatbot(form).1
       case Some(name) => AddChatbot(st, name, now, saved).0.state
       case None => st)
    case RenameAction(edit, renamed) =>
      (match HandleSaveEdit(edit).1
       case Some((id, name)) => RenameChatbot(st, id, name, renamed).state
       case None => st)
    case DeleteAction(id, confirmed, deleted) =>
      (match HandleRemoveChatbot(|st.chatbots|, id, confirmed)
       case Remove(x) => RemoveChatbot(st, x, deleted).state
       case _ => st)
  }

  function Run(st: AppState, actions: seq<Action>): AppState
    decreases |actions|
  {
    if actions == [] then st else Run(Perform(st, actions[0]), actions[1..])
  }

  /** Every chatbot added along the run gets an id not yet in the list. */
  ghost predicate FreshAlong(st: AppState, actions: seq<Action>)
    decreases |actions|
  {
    actions != [] ==>
      && (actions[0].AddAction? ==> BotIdAt(actions[0].now) !in ChatbotIds(st.chatbots))
      && FreshAlong(Perform(st, actions[0]), actions[1..])
  }

  lemma PerformKeepsInvariant(st: AppState, a: Action)
    requires UniqueIds(st.chatbots) && |st.chatbots| >= 1
    requires a.AddAction? ==> BotIdAt(a.now) !in ChatbotIds(st.chatbots)
    ensures UniqueIds(Perform(st, a).chatbots) && |Perform(st, a).chatbots| >= 1
  {
    match a
    case AddAction(form, now, saved) =>
      if HandleAddChatbot(form).1.Some? {
        StateProps.AddChatbotActivates(st, HandleAddChatbot(form).1.value, now, saved);
      }
    case RenameAction(edit, renamed) =>
      if HandleSaveEdit(edit).1.Some? {
        RenameKeepsInvariant(st, HandleSaveEdit(edit).1.value.0, HandleSaveEdit(edit).1.value.1, renamed);
      }
    case DeleteAction(id, confirmed, deleted) =>
      if HandleRemoveChatbot(|st.chatbots|, id, confirmed).Remove? {
        StateProps.GuardedRemoveKeepsOne(st, id, deleted);
      }
  }

  lemma RenameKeepsInvariant(st: AppState, id: string, name: string, renamed: Status)
    requires UniqueIds(st.chatbots) && |st.chatbots| >= 1
    ensures var r := RenameChatbot(st, id, name, renamed).state.chatbots;
      UniqueIds(r) && |r| >= 1
  {
    var r := RenameChatbot(st, id, name, renamed).state.chatbots;
    assert forall i :: 0 <= i < |r| ==> r[i].id == st.chatbots[i].id;
  }

  /** Once at least one chatbot exists, no sequence of add, rename and
      delete actions through the sidebar leaves the list empty, and ids
      stay unique. */
  lemma {:induction false} NeverBelowOne(st: AppState, actions: seq<Action>)
    requires UniqueIds(st.chatbots) && |st.chatbots| >= 1
    requires FreshAlong(st, actions)
    ensures |Run(st, actions).chatbots| >= 1
    ensures UniqueIds(Run(st, actions).chatbots)
    decreases |actions|
  {
    if actions != [] {
      PerformKeepsInvariant(st, actions[0]);
      NeverBelowOne(Perform(st, actions[0]), actions[1..]);
    }
  }
}

=== FILE: state.dfy ===
/** The page-level state store (app/page.tsx): the chatbot tree, the active
    chatbot and session ids, and the reducers every user action goes
    through. Each reducer replaces the tree copy-on-write, then reports the
    gateway's answer as a toast; a failed save never rolls the local change
    back. The gateway's answer is an input here (a `Status`), because the
    call itself is asynchronous I/O. */
module State {
  import opened Types
  import opened Text

  datatype AppState = AppState(
    authenticated: bool,
    chatbots: seq<Chatbot>,
    activeChatbotId: string,
    activeSessionId: Option<string>,
    userId: string,
    initialized: bool)

  /** A toast: its title and description. */
  datatype Notice = Notice(title: string, description: string)

  /** A reducer's outcome: the new state and the toast it shows, if any. */
  datatype Step = Step(state: AppState, notice: Option<Notice>)

  /** The toast shown when a gateway call fails: "Failed to <what>: <error>". */
  function FailureNotice(what: string, saved: Status): (n: Option<Notice>)
    ensures n.Some? <==> saved.Failure?
    ensures saved.Failure? ==> n.value.title == "Error" && n.value.description == "Failed to " + what + ": " + saved.error
  {
    match saved
    case Success => None
    case Failure(e) => Some(Notice("Error", "Failed to " + what + ": " + e))
  }

  /** Like `FailureNotice`, with a success toast as well. */
  function OutcomeNotice(what: string, saved: Status, success: string): (n: Notice)
    ensures saved.Success? ==> n == Notice("Success", success)
    ensures saved.Failure? ==> Some(n) == FailureNotice(what, saved)
  {
    match saved
    case Success => Notice("Success", success)
    case Failure(e) => Notice("Error", "Failed to " + what + ": " + e)
  }

  // ---------------------------------------------------------------------
  // Copy-on-write updates of the tree
  // ---------------------------------------------------------------------

  /** `prev.map((bot) => bot.id === id ? {...bot, name} : bot)`: only the
      names of the matching chatbots change. */
  function RenameIn(bots: seq<Chatbot>, id: string, name: string): (r: seq<Chatbot>)
    ensures |r| == |bots|
    ensures forall i :: 0 <= i < |r| ==>
      && r[i].id == bots[i].id
      && r[i].sessions == bots[i].sessions
      && r[i].settings == bots[i].settings
      && r[i].name == (if bots[i].id == id then name else bots[i].name)
  {
    seq(|bots|, i requires 0 <= i < |bots| => if bots[i].id == id then bots[i].(name := name) else bots[i])
  }

  /** `prev.map((bot) => bot.id === id ? {...bot, settings} : bot)`: only the
      settings of the matching chatbots change. */
  function SettingsIn(bots: seq<Chatbot>, id: string, settings: Settings): (r: seq<Chatbot>)
    ensures |r| == |bots|
    ensures forall i :: 0 <= i < |r| ==>
      && r[i].id == bots[i].id
      && r[i].name == bots[i].name
      && r[i].sessions == bots[i].sessions
      && r[i].settings == (if bots[i].id == id then Some(settings) else bots[i].settings)
  {
    seq(|bots|, i requires 0 <= i < |bots| => if bots[i].id == id then bots[i].(settings := Some(settings)) else bots[i])
  }

  /** Appends `m` to the matching sessions; every other session is kept. */
  function AppendToSessions(sessions: seq<Session>, sid: string, m: Message): (r: seq<Session>)
    ensures |r| == |sessions|
    ensures forall j :: 0 <= j < |r| ==>
      && r[j].id == sessions[j].id
      && r[j].name == sessions[j].name
      && r[j].threadId == sessions[j].threadId
      && r[j].messages == (if sessions[j].id == sid then sessions[j].messages + [m] else sessions[j].messages)
  {
    seq(|sessions|, j requires 0 <= j < |sessions| =>
      if sessions[j].id == sid then sessions[j].(messages := sessions[j].messages + [m]) else sessions[j])
  }

  /** The tree update of `addMessage`: the message goes to the end of the
      matching session of the matching chatbot, and nothing else changes. */
  function AppendMessageIn(bots: seq<Chatbot>, cid: string, sid: string, m: Message): (r: seq<Chatbot>)
    ensures |r| == |bots|
    ensures forall i :: 0 <= i < |r| ==>
      && r[i].id == bots[i].id
      && r[i].name == bots[i].name
      && r[i].settings == bots[i].settings
      && r[i].sessions == (if bots[i].id == cid then AppendToSessions(bots[i].sessions, sid, m) else bots[i].sessions)
  {
    seq(|bots|, i requires 0 <= i < |bots| =>
      if bots[i].id == cid then bots[i].(sessions := AppendToSessions(bots[i].sessions, sid, m)) else bots[i])
  }

  /** The tree update of `createNewSession`: `s` goes to the end of the
      matching chatbots' session lists. */
  function AddSessionIn(bots: seq<Chatbot>, cid: string, s: Session): (r: seq<Chatbot>)
    ensures |r| == |bots|
    ensures forall i :: 0 <= i < |r| ==>
      && r[i].id == bots[i].id
      && r[i].name == bots[i].name
      && r[i].settings == bots[i].settings
      && r[i].sessions == (if bots[i].id == cid then bots[i].sessions + [s] else bots[i].sessions)
  {
    seq(|bots|, i requires 0 <= i < |bots| =>
      if bots[i].id == cid then bots[i].(sessions := bots[i].sessions + [s]) else bots[i])
  }

  /** `prev.filter((bot) => bot.id !== id)` */
  function RemoveFrom(bots: seq<Chatbot>, id: string): (r: seq<Chatbot>)
    ensures |r| <= |bots|
    ensures forall i :: 0 <= i < |r| ==> r[i].id != id
    ensures forall b :: b in r <==> b in bots && b.id != id
    ensures (forall i :: 0 <= i < |bots| ==> bots[i].id != id) ==> r == bots
    ensures r != [] ==> exists k :: 0 <= k < |bots| && r[0] == bots[k] && forall m :: 0 <= m < k ==> bots[m].id == id
  {
    if bots == [] then []
    else if bots[0].id == id then
      var rest := RemoveFrom(bots[1..], id);
      if rest != [] then
        FirstSurvivorPastRemoved(bots, id, rest[0]);
        rest
      else rest
    else
      var r := [bots[0]] + RemoveFrom(bots[1..], id);
      assert r[0] == bots[0];
      r
  }
  /** A head carrying the removed id does not change which chatbot survives
      first: its position just moves one further along. */
  lemma FirstSurvivorPastRemoved(bots: seq<Chatbot>, id: string, first: Chatbot)
    requires |bots| > 0 && bots[0].id == id
    requires exists k :: 0 <= k < |bots[1..]| && first == bots[1..][k] && forall m :: 0 <= m < k ==> bots[1..][m].id == id
    ensures exists k :: 0 <= k < |bots| && first == bots[k] && forall m :: 0 <= m < k ==> bots[m].id == id
  {
    var k :| 0 <= k < |bots[1..]| && first == bots[1..][k] && forall m :: 0 <= m < k ==> bots[1..][m].id == id;
    forall m | 0 <= m < k + 1
      ensures bots[m].id == id
    {
      if m > 0 { assert bots[m] == bots[1..][m - 1]; }
    }
    assert first == bots[k + 1];
  }


  // ---------------------------------------------------------------------
  // Derived values
  // ---------------------------------------------------------------------

  /** `activeChatbot`: the chatbot whose id is active, else the first one;
      absent only when there are no chatbots. */
  function ActiveChatbot(bots: seq<Chatbot>, activeId: string): (r: Option<Chatbot>)
    ensures r.None? <==> |bots| == 0
    ensures r.Some? ==> r.value in bots
    ensures r.Some? && r.value.id != activeId ==> r.value == bots[0] && forall i :: 0 <= i < |bots| ==> bots[i].id != activeId
  {
    if |bots| == 0 then None
    else match FindChatbot(bots, activeId)
      case Some(b) => Some(b)
      case None => Some(bots[0])
  }

  /** `activeSession`: the session of the active chatbot whose id is the
      active session id. An absent or empty id (falsy) selects nothing. */
  function ActiveSession(bots: seq<Chatbot>, activeId: string, sessionId: Option<string>): (r: Option<Session>)
    ensures sessionId.None? || sessionId == Some("") ==> r.None?
    ensures r.Some? ==>
              && sessionId == Some(r.value.id)
              && ActiveChatbot(bots, activeId).Some?
              && r.value in ActiveChatbot(bots, activeId).value.sessions
    ensures (&& sessionId.Some? && sessionId.value != ""
             && ActiveChatbot(bots, activeId).Some?
             && sessionId.value in SessionIds(ActiveChatbot(bots, activeId).value.sessions))
            ==> r.Some?
  {
    if sessionId.None? || sessionId.value == "" then None
    else match ActiveChatbot(bots, activeId)
      case None => None
      case Some(b) => FindSession(b.sessions, sessionId.value)
  }

  // ---------------------------------------------------------------------
  // Reducers
  // ---------------------------------------------------------------------

  function SessionIdAt(now: nat): (id: string)
    ensures |id| > 8 && id[..8] == "session_"
  {
    "session_" + NatToString(now)
  }

  function BotIdAt(now: nat): (id: string)
    ensures |id| > 4 && id[..4] == "bot_"
  {
    "bot_" + NatToString(now)
  }

  /** The session `createNewSession` builds: named after the target
      chatbot's session count, empty, with thread id `userId_sessionId`. */
  function NewSession(st: AppState, cid: string, now: nat): (s: Session)
    ensures s.id == SessionIdAt(now) && s.messages == []
    ensures s.threadId == st.userId + "_" + s.id
    ensures FindChatbot(st.chatbots, cid).None? ==> s.name == "Chat 1"
    ensures FindChatbot(st.chatbots, cid).Some? ==>
      s.name == "Chat " + NatToString(|FindChatbot(st.chatbots, cid).value.sessions| + 1)
  {
    var id := SessionIdAt(now);
    var count := match FindChatbot(st.chatbots, cid) case Some(b) => |b.sessions| case None => 0;
    Session(id, "Chat " + NatToString(count + 1), [], st.userId + "_" + id)
  }

  /** `createNewSession(cid)`, with `now` the clock reading and `saved` the
      answer of the session save. Returns the new step and the new id. */
  function CreateNewSession(st: AppState, cid: string, now: nat, saved: Status): (r: (Step, string))
    ensures r.1 == SessionIdAt(now)
    ensures r.0.state.activeChatbotId == cid && r.0.state.activeSessionId == Some(r.1)
    ensures r.0.state.chatbots == AddSessionIn(st.chatbots, cid, NewSession(st, cid, now))
    ensures r.0.state.userId == st.userId && r.0.state.initialized == st.initialized
      && r.0.state.authenticated == st.authenticated
    ensures r.0.notice == FailureNotice("save session", saved)
  {
    var s := NewSession(st, cid, now);
    var st' := st.(chatbots := AddSessionIn(st.chatbots, cid, s), activeChatbotId := cid, activeSessionId := Some(s.id));
    (Step(st', FailureNotice("save session", saved)), s.id)
  }

  /** `updateChatbotSettings(id, settings)`: the toast reports the save,
      which is only attempted when the chatbot exists. */
  function UpdateChatbotSettings(st: AppState, id: string, settings: Settings, saved: Status): (r: Step)
    ensures r.state == st.(chatbots := SettingsIn(st.chatbots, id, settings))
    ensures FindChatbot(st.chatbots, id).None? ==> r.notice.None?
    ensures FindChatbot(st.chatbots, id).Some? ==>
      r.notice == Some(OutcomeNotice("save settings", saved, "Settings saved successfully!"))
  {
    var notice := if FindChatbot(st.chatbots, id).Some? then Some(OutcomeNotice("save settings", saved, "Settings saved successfully!")) else None;
    Step(st.(chatbots := SettingsIn(st.chatbots, id, settings)), notice)
  }

  /** `addMessage(cid, sid, m)`: a failed save is only logged. */
  function AddMessage(st: AppState, cid: string, sid: string, m: Message): (r: AppState)
    ensures r == st.(chatbots := AppendMessageIn(st.chatbots, cid, sid, m))
  {
    st.(chatbots := AppendMessageIn(st.chatbots, cid, sid, m))
  }

  /** `addChatbot(name)`: a new chatbot with no sessions (and no settings)
      at the end of the list, made active. */
  function AddChatbot(st: AppState, name: string, now: nat, saved: Status): (r: (Step, string))
    ensures r.1 == BotIdAt(now)
    ensures r.0.state.chatbots == st.chatbots + [Chatbot(r.1, name, [], None)]
    ensures r.0.state.activeChatbotId == r.1
    ensures r.0.state.activeSessionId == st.activeSessionId && r.0.state.userId == st.userId
    ensures r.0.state.authenticated == st.authenticated && r.0.state.initialized == st.initialized
    ensures r.0.notice == Some(OutcomeNotice("save chatbot", saved, "Chatbot created successfully!"))
  {
    var id := BotIdAt(now);
    var st' := st.(chatbots := st.chatbots + [Chatbot(id, name, [], None)], activeChatbotId := id);
    (Step(st', Some(OutcomeNotice("save chatbot", saved, "Chatbot created successfully!"))), id)
  }

  /** `removeChatbot(id)`. Removing the active chatbot moves the selection to
      the first remaining chatbot and clears the session; otherwise the
      selection is kept. */
  function RemoveChatbot(st: AppState, id: string, deleted: Status): (r: Step)
    ensures r.state.chatbots == RemoveFrom(st.chatbots, id)
    ensures id == st.activeChatbotId && |r.state.chatbots| > 0 ==>
      exists k :: 0 <= k < |st.chatbots| && r.state.activeChatbotId == st.chatbots[k].id && st.chatbots[k].id != id
        && forall m :: 0 <= m < k ==> st.chatbots[m].id == id
    ensures forall i :: 0 <= i < |r.state.chatbots| ==> r.state.chatbots[i].id != id
    ensures forall b :: b in r.state.chatbots <==> b in st.chatbots && b.id != id
    ensures id == st.activeChatbotId && |r.state.chatbots| > 0 ==>
      r.state.activeChatbotId == r.state.chatbots[0].id && r.state.activeSessionId.None?
    ensures !(id == st.activeChatbotId && |r.state.chatbots| > 0) ==>
      r.state.activeChatbotId == st.activeChatbotId && r.state.activeSessionId == st.activeSessionId
    ensures r.state.userId == st.userId && r.state.initialized == st.initialized
    ensures r.state.authenticated == st.authenticated
    ensures r.notice == Some(OutcomeNotice("delete chatbot", deleted, "Chatbot deleted successfully!"))
  {
    var rest := RemoveFrom(st.chatbots, id);
    var st1 := st.(chatbots := rest);
    var st2 := if id == st.activeChatbotId && |rest| > 0 then st1.(activeChatbotId := rest[0].id, activeSessionId := None) else st1;
    Step(st2, Some(OutcomeNotice("delete chatbot", deleted, "Chatbot deleted successfully!")))
  }

  /** `renameChatbot(id, name)`: only a failed save shows a toast. */
  function RenameChatbot(st: AppState, id: string, name: string, saved: Status): (r: Step)
    ensures r.state == st.(chatbots := RenameIn(st.chatbots, id, name))
    ensures r.notice.Some? <==> FindChatbot(st.chatbots, id).Some? && saved.Failure?
    ensures r.notice.Some? ==> r.notice == FailureNotice("rename chatbot", saved)
  {
    var notice := if FindChatbot(st.chatbots, id).Some? then FailureNotice("rename chatbot", saved) else None;
    Step(st.(chatbots := RenameIn(st.chatbots, id, name)), notice)
  }

  /** What signing out clears. The active ids are left as they were. */
  function SignOutReset(st: AppState): (r: AppState)
    ensures !r.authenticated && r.chatbots == [] && r.userId == "" && !r.initialized
    ensures r.activeChatbotId == st.activeChatbotId && r.activeSessionId == st.activeSessionId
  {
    st.(authenticated := false, chatbots := [], userId := "", initialized := false)
  }

  /** `handleSignOut`: resets on success; on failure only a toast. */
  function HandleSignOut(st: AppState, result: Status): (r: Step)
    ensures result.Success? ==> r == Step(SignOutReset(st), None)
    ensures result.Failure? ==> r.state == st && r.notice == FailureNotice("sign out", result)
  {
    match result
    case Success => Step(SignOutReset(st), None)
    case Failure(_) => Step(st, FailureNotice("sign out", result))
  }

  /** The profile fields the user id is derived from. */
  datatype Profile = Profile(username: string, emailLocalPart: string)

  /** An auth transition: no session, or a session whose profile lookup
      either succeeded or returned nothing. */
  datatype AuthChange = SignedOut | SignedIn(profile: Option<Profile>)

  /** `profile.username || email.split("@")[0] || "user"` */
  function UserIdOf(p: Profile): (u: string)
    ensures u != ""
    ensures p.username != "" ==> u == p.username
    ensures p.username == "" && p.emailLocalPart != "" ==> u == p.emailLocalPart
    ensures p.username == "" && p.emailLocalPart == "" ==> u == "user"
  {
    if p.username != "" then p.username
    else if p.emailLocalPart != "" then p.emailLocalPart
    else "user"
  }

  /** The auth-state listener. */
  function OnAuthChange(st: AppState, ev: AuthChange): (r: AppState)
    ensures ev.SignedOut? ==> r == SignOutReset(st)
    ensures ev.SignedIn? && ev.profile.Some? ==> r == st.(authenticated := true, userId := UserIdOf(ev.profile.value))
    ensures ev.SignedIn? && ev.profile.None? ==> r == st.(authenticated := false)
  {
    match ev
    case SignedOut => SignOutReset(st)
    case SignedIn(Some(p)) => st.(authenticated := true, userId := UserIdOf(p))
    case SignedIn(None) => st.(authenticated := false)
  }

  /** The load effect: once authenticated and not yet initialized, the loaded
      chatbots replace the tree and the first one becomes active. */
  function FinishLoad(st: AppState, loaded: seq<Chatbot>): (r: AppState)
    ensures !(st.authenticated && !st.initialized) ==> r == st
    ensures st.authenticated && !st.initialized ==>
      && r.chatbots == loaded && r.initialized
      && r.activeChatbotId == (if |loaded| > 0 then loaded[0].id else st.activeChatbotId)
      && r.activeSessionId == st.activeSessionId
      && r.authenticated == st.authenticated && r.userId == st.userId
  {
    if st.authenticated && !st.initialized then
      var st1 := st.(chatbots := loaded, initialized := true);
      if |loaded| > 0 then st1.(activeChatbotId := loaded[0].id) else st1
    else st
  }

  /** The `bot` and `session` query parameters, applied once initialized;
      an empty parameter is ignored. */
  function ApplyUrlParams(st: AppState, bot: Option<string>, session: Option<string>): (r: AppState)
    ensures r.chatbots == st.chatbots
    ensures r.authenticated == st.authenticated && r.userId == st.userId && r.initialized == st.initialized
    ensures r.activeChatbotId == (if st.initialized && bot.Some? && bot.value != "" then bot.value else st.activeChatbotId)
    ensures r.activeSessionId == (if st.initialized && session.Some? && session.value != "" then session else st.activeSessionId)
  {
    if !st.initialized then st
    else
      var st1 := if bot.Some? && bot.value != "" && bot.value != st.activeChatbotId then st.(activeChatbotId := bot.value) else st;
      if session.Some? && session.value != "" && Some(session.value) != st1.activeSessionId then st1.(activeSessionId := session) else st1
  }
}

=== FILE: state_props.dfy ===
/** Properties relating the page-level reducers to each other and to the
    derived `activeChatbot` / `activeSession` values. */
module StateProps {
  import opened Types
  import opened Text
  import opened State

  /** Renaming never touches ids or order, and renaming back restores the
      tree exactly. */
  lemma RenameUndo(bots: seq<Chatbot>, k: nat, name: string)
    requires UniqueIds(bots) && k < |bots|
    ensures ChatbotIds(RenameIn(bots, bots[k].id, name)) == ChatbotIds(bots)
    ensures RenameIn(RenameIn(bots, bots[k].id, name), bots[k].id, bots[k].name) == bots
  {
    var id := bots[k].id;
    var once := RenameIn(bots, id, name);
    var back := RenameIn(once, id, bots[k].name);
    assert forall i :: 0 <= i < |bots| ==> back[i] == bots[i];
  }

  /** The settings written are what the tree shows for that chatbot
      afterwards, whatever the save answered: no rollback. */
  lemma SettingsVisibleDespiteFailure(st: AppState, k: nat, s: Settings, saved: Status)
    requires UniqueIds(st.chatbots) && k < |st.chatbots|
    ensures var r := UpdateChatbotSettings(st, st.chatbots[k].id, s, saved);
      && FindChatbot(r.state.chatbots, st.chatbots[k].id) == Some(st.chatbots[k].(settings := Some(s)))
      && (saved.Failure? ==> r.notice == FailureNotice("save settings", saved))
  {
    var r := UpdateChatbotSettings(st, st.chatbots[k].id, s, saved);
    assert UniqueIds(r.state.chatbots) by {
      assert forall i :: 0 <= i < |r.state.chatbots| ==> r.state.chatbots[i].id == st.chatbots[i].id;
    }
    FindUnique(r.state.chatbots, k);
  }

  /** Writing the same settings twice is the same as writing them once. */
  lemma SettingsIdempotent(bots: seq<Chatbot>, id: string, s: Settings)
    ensures SettingsIn(SettingsIn(bots, id, s), id, s) == SettingsIn(bots, id, s)
  {
    var once := SettingsIn(bots, id, s);
    var twice := SettingsIn(once, id, s);
    assert forall i :: 0 <= i < |bots| ==> twice[i] == once[i];
  }

  /** `addMessage` with an id that matches nothing leaves the tree as it was. */
  lemma AppendToMissingIsIdentity(bots: seq<Chatbot>, cid: string, sid: string, m: Message)
    requires forall i, j :: 0 <= i < |bots| && bots[i].id == cid && 0 <= j < |bots[i].sessions|
               ==> bots[i].sessions[j].id != sid
    ensures AppendMessageIn(bots, cid, sid, m) == bots
  {
    var r := AppendMessageIn(bots, cid, sid, m);
    forall i | 0 <= i < |bots|
      ensures r[i] == bots[i]
    {
      if bots[i].id == cid {
        var ss := AppendToSessions(bots[i].sessions, sid, m);
        assert ss == bots[i].sessions by {
          assert forall j :: 0 <= j < |ss| ==> ss[j] == bots[i].sessions[j];
        }
      }
    }
  }

  /** Appending keeps every id, so the uniqueness facts survive, and the
      addressed session grows by the message. */
  lemma AppendKeepsShape(bots: seq<Chatbot>, k: nat, j: nat, m: Message)
    requires UniqueIds(bots) && k < |bots|
    requires UniqueSessionIds(bots[k].sessions) && j < |bots[k].sessions|
    ensures var r := AppendMessageIn(bots, bots[k].id, bots[k].sessions[j].id, m);
      && UniqueIds(r) && r[k].id == bots[k].id
      && UniqueSessionIds(r[k].sessions) && j < |r[k].sessions|
      && r[k].sessions[j].id == bots[k].sessions[j].id
      && r[k].sessions[j].messages == bots[k].sessions[j].messages + [m]
  {
    var r := AppendMessageIn(bots, bots[k].id, bots[k].sessions[j].id, m);
    assert UniqueIds(r) by {
      assert forall i :: 0 <= i < |r| ==> r[i].id == bots[i].id;
    }
    var ss := r[k].sessions;
    assert UniqueSessionIds(ss) by {
      assert forall q :: 0 <= q < |ss| ==> ss[q].id == bots[k].sessions[q].id;
    }
  }

  /** With unique ids, `addMessage` puts the message at the end of the
      addressed session, which is then found where it was. */
  lemma AppendLandsAtEnd(bots: seq<Chatbot>, k: nat, j: nat, m: Message)
    requires UniqueIds(bots) && k < |bots|
    requires UniqueSessionIds(bots[k].sessions) && j < |bots[k].sessions|
    ensures var r := AppendMessageIn(bots, bots[k].id, bots[k].sessions[j].id, m);
      && FindChatbot(r, bots[k].id).Some?
      && FindSession(FindChatbot(r, bots[k].id).value.sessions, bots[k].sessions[j].id).Some?
      && FindSession(FindChatbot(r, bots[k].id).value.sessions, bots[k].sessions[j].id).value.messages
         == bots[k].sessions[j].messages + [m]
  {
    var r := AppendMessageIn(bots, bots[k].id, bots[k].sessions[j].id, m);
    AppendKeepsShape(bots, k, j, m);
    FindUnique(r, k);
    FindSessionUnique(r[k].sessions, j);
  }

  /** Number of messages held by a list of sessions. */
  function SessionMessages(ss: seq<Session>): nat {
    if ss == [] then 0 else |ss[0].messages| + SessionMessages(ss[1..])
  }

  /** Number of messages held by the whole tree. */
  function TreeMessages(bots: seq<Chatbot>): nat {
    if bots == [] then 0 else SessionMessages(bots[0].sessions) + TreeMessages(bots[1..])
  }

  function CountSession(ss: seq<Session>, sid: string): nat {
    if ss == [] then 0 else (if ss[0].id == sid then 1 else 0) + CountSession(ss[1..], sid)
  }

  lemma {:induction false} AppendToSessionsCount(ss: seq<Session>, sid: string, m: Message)
    ensures SessionMessages(AppendToSessions(ss, sid, m)) == SessionMessages(ss) + CountSession(ss, sid)
  {
    if ss != [] {
      var r := AppendToSessions(ss, sid, m);
      assert r[1..] == AppendToSessions(ss[1..], sid, m);
      AppendToSessionsCount(ss[1..], sid, m);
    }
  }

  lemma {:induction false} CountUniqueAt(ss: seq<Session>, j: nat)
    requires UniqueSessionIds(ss) && j < |ss|
    ensures CountSession(ss, ss[j].id) == 1
  {
    if j == 0 {
      CountAbsent(ss[1..], ss[0].id);
    } else {
      assert UniqueSessionIds(ss[1..]);
      CountUniqueAt(ss[1..], j - 1);
    }
  }

  lemma {:induction false} CountAbsent(ss: seq<Session>, sid: string)
    requires forall q :: 0 <= q < |ss| ==> ss[q].id != sid
    ensures CountSession(ss, sid) == 0
  {
    if ss != [] {
      CountAbsent(ss[1..], sid);
    }
  }

  lemma {:induction false} TreeUnchangedOutside(bots: seq<Chatbot>, cid: string, sid: string, m: Message)
    requires forall i :: 0 <= i < |bots| ==> bots[i].id != cid
    ensures TreeMessages(AppendMessageIn(bots, cid, sid, m)) == TreeMessages(bots)
  {
    assert AppendMessageIn(bots, cid, sid, m) == bots by {
      var r := AppendMessageIn(bots, cid, sid, m);
      assert forall i :: 0 <= i < |bots| ==> r[i] == bots[i];
    }
  }

  /** Appending to an existing session of a chatbot with a unique id adds
      exactly one message to the whole tree. */
  lemma {:induction false} AppendAddsOneMessage(bots: seq<Chatbot>, k: nat, j: nat, m: Message)
    requires UniqueIds(bots) && k < |bots|
    requires UniqueSessionIds(bots[k].sessions) && j < |bots[k].sessions|
    ensures TreeMessages(AppendMessageIn(bots, bots[k].id, bots[k].sessions[j].id, m)) == TreeMessages(bots) + 1
  {
    var cid := bots[k].id;
    var sid := bots[k].sessions[j].id;
    var r := AppendMessageIn(bots, cid, sid, m);
    assert r[1..] == AppendMessageIn(bots[1..], cid, sid, m);
    if k == 0 {
      AppendToSessionsCount(bots[0].sessions, sid, m);
      CountUniqueAt(bots[0].sessions, j);
      assert forall i :: 0 <= i < |bots[1..]| ==> bots[1..][i].id != cid by {
        forall i | 0 <= i < |bots[1..]| ensures bots[1..][i].id != cid {
          assert bots[1..][i] == bots[i + 1];
        }
      }
      TreeUnchangedOutside(bots[1..], cid, sid, m);
    } else {
      assert r[0] == bots[0];
      assert UniqueIds(bots[1..]);
      assert bots[1..][k - 1] == bots[k];
      AppendAddsOneMessage(bots[1..], k - 1, j, m);
    }
  }

  /** After `createNewSession` on an existing chatbot, the active session is
      the new one: empty, named after the prior session count, with thread
      id `userId_sessionId`, whatever the save answered. */
  lemma CreateSelectsNewSession(st: AppState, k: nat, now: nat, saved: Status)
    requires UniqueIds(st.chatbots) && k < |st.chatbots|
    requires SessionIdAt(now) !in SessionIds(st.chatbots[k].sessions)
    ensures var (step, sid) := CreateNewSession(st, st.chatbots[k].id, now, saved);
      var s := ActiveSession(step.state.chatbots, step.state.activeChatbotId, step.state.activeSessionId);
      && s.Some? && s.value.id == sid && s.value.messages == []
      && s.value.name == "Chat " + NatToString(|st.chatbots[k].sessions| + 1)
      && s.value.threadId == st.userId + "_" + sid
      && |ActiveChatbot(step.state.chatbots, step.state.activeChatbotId).value.sessions| == |st.chatbots[k].sessions| + 1
  {
    var cid := st.chatbots[k].id;
    var (step, sid) := CreateNewSession(st, cid, now, saved);
    var bots := step.state.chatbots;
    FindUnique(st.chatbots, k);
    assert UniqueIds(bots) by {
      assert forall i :: 0 <= i < |bots| ==> bots[i].id == st.chatbots[i].id;
    }
    FindUnique(bots, k);
    var ss := bots[k].sessions;
    var last := |ss| - 1;
    assert ss[last] == NewSession(st, cid, now);
    assert sid in SessionIds(ss) by { assert SessionIds(ss)[last] == sid; }
    var s := ActiveSession(bots, cid, Some(sid));
    var found := FindSession(ss, sid);
    assert s == found;
  }

  /** Adding a chatbot with a fresh id keeps ids unique and makes it the
      active chatbot. */
  lemma AddChatbotActivates(st: AppState, name: string, now: nat, saved: Status)
    requires UniqueIds(st.chatbots)
    requires BotIdAt(now) !in ChatbotIds(st.chatbots)
    ensures var (step, id) := AddChatbot(st, name, now, saved);
      && UniqueIds(step.state.chatbots)
      && ActiveChatbot(step.state.chatbots, step.state.activeChatbotId) == Some(Chatbot(id, name, [], None))
  {
    var (step, id) := AddChatbot(st, name, now, saved);
    var bots := step.state.chatbots;
    assert forall i :: 0 <= i < |st.chatbots| ==> st.chatbots[i].id != id by {
      forall i | 0 <= i < |st.chatbots| ensures st.chatbots[i].id != id {
        assert ChatbotIds(st.chatbots)[i] == st.chatbots[i].id;
      }
    }
    assert UniqueIds(bots);
    FindUnique(bots, |bots| - 1);
  }

  lemma UniqueTail(bots: seq<Chatbot>)
    requires UniqueIds(bots) && |bots| > 0
    ensures UniqueIds(bots[1..])
    ensures forall i :: 0 <= i < |bots[1..]| ==> bots[1..][i].id != bots[0].id
  {
    forall a, b | 0 <= a < |bots[1..]| && 0 <= b < |bots[1..]| && bots[1..][a].id == bots[1..][b].id
      ensures a == b
    {
      assert bots[1..][a] == bots[a + 1] && bots[1..][b] == bots[b + 1];
    }
    forall i | 0 <= i < |bots[1..]|
      ensures bots[1..][i].id != bots[0].id
    {
      assert bots[1..][i] == bots[i + 1];
    }
  }

  /** Removing the id of the head of a list with unique ids drops the head. */
  lemma RemoveHead(bots: seq<Chatbot>)
    requires UniqueIds(bots) && |bots| > 0
    ensures RemoveFrom(bots, bots[0].id) == bots[1..]
  {
    UniqueTail(bots);
    assert RemoveFrom(bots, bots[0].id) == RemoveFrom(bots[1..], bots[0].id);
  }

  /** With unique ids, removing a present chatbot is deleting its slot. */
  lemma {:induction false} RemoveUnique(bots: seq<Chatbot>, k: nat)
    requires UniqueIds(bots) && k < |bots|
    ensures RemoveFrom(bots, bots[k].id) == bots[..k] + bots[k + 1..]
  {
    if k == 0 {
      RemoveHead(bots);
      assert bots[..0] + bots[1..] == bots[1..];
    } else {
      var tail := bots[1..];
      var id := bots[k].id;
      UniqueTail(bots);
      assert tail[k - 1] == bots[k];
      RemoveUnique(tail, k - 1);
      RemoveStep(bots, id, tail[..k - 1] + tail[k..]);
      SkipAfterHead(bots, k);
    }
  }

  /** Deleting slot `k > 0` is keeping the head and deleting slot `k - 1`
      of the tail. */
  lemma SkipAfterHead(bots: seq<Chatbot>, k: nat)
    requires 0 < k < |bots|
    ensures bots[..k] + bots[k + 1..] == [bots[0]] + (bots[1..][..k - 1] + bots[1..][k..])
  {
    assert bots[..k] == [bots[0]] + bots[1..][..k - 1];
    assert bots[k + 1..] == bots[1..][k..];
  }

  /** One step of the filter past a head that stays. */
  lemma RemoveStep(bots: seq<Chatbot>, id: string, rest: seq<Chatbot>)
    requires |bots| > 0 && bots[0].id != id && RemoveFrom(bots[1..], id) == rest
    ensures RemoveFrom(bots, id) == [bots[0]] + rest
  {
  }

  /** The invariant the sidebar's guard protects: when more than one
      chatbot exists, removing one leaves at least one, ids stay unique,
      and an active id that named a chatbot still names one afterwards,
      whether the active chatbot or another one was removed. */
  lemma GuardedRemoveKeepsOne(st: AppState, id: string, deleted: Status)
    requires UniqueIds(st.chatbots) && |st.chatbots| > 1
    ensures var r := RemoveChatbot(st, id, deleted).state;
      && |r.chatbots| >= 1
      && UniqueIds(r.chatbots)
      && (id == st.activeChatbotId ==> r.activeChatbotId in ChatbotIds(r.chatbots))
      && (st.activeChatbotId in ChatbotIds(st.chatbots) ==> r.activeChatbotId in ChatbotIds(r.chatbots))
  {
    var r := RemoveChatbot(st, id, deleted).state;
    var bots := st.chatbots;
    var k := IndexOf(ChatbotIds(bots), id);
    if k.Some? {
      RemoveKeepsUnique(bots, k.value);
    } else {
      AbsentIdKeepsAll(bots, id);
    }
    if id == st.activeChatbotId {
      assert ChatbotIds(r.chatbots)[0] == r.chatbots[0].id;
    } else if st.activeChatbotId in ChatbotIds(bots) {
      OtherIdSurvives(bots, id, st.activeChatbotId);
    }
  }

  /** Removing one id keeps every other id present. */
  lemma OtherIdSurvives(bots: seq<Chatbot>, id: string, other: string)
    requires other in ChatbotIds(bots) && other != id
    ensures other in ChatbotIds(RemoveFrom(bots, id))
  {
    var j :| 0 <= j < |bots| && ChatbotIds(bots)[j] == other;
    var r := RemoveFrom(bots, id);
    assert bots[j] in r;
    var m :| 0 <= m < |r| && r[m] == bots[j];
    assert ChatbotIds(r)[m] == other;
  }

  lemma AbsentIdKeepsAll(bots: seq<Chatbot>, id: string)
    requires id !in ChatbotIds(bots)
    ensures RemoveFrom(bots, id) == bots
  {
    forall i | 0 <= i < |bots| ensures bots[i].id != id {
      assert ChatbotIds(bots)[i] == bots[i].id;
    }
  }

  lemma RemoveKeepsUnique(bots: seq<Chatbot>, k: nat)
    requires UniqueIds(bots) && k < |bots|
    ensures |RemoveFrom(bots, bots[k].id)| == |bots| - 1
    ensures UniqueIds(RemoveFrom(bots, bots[k].id))
  {
    RemoveUnique(bots, k);
    var r := bots[..k] + bots[k + 1..];
    forall a, b | 0 <= a < |r| && 0 <= b < |r| && r[a].id == r[b].id
      ensures a == b
    {
      var a' := if a < k then a else a + 1;
      var b' := if b < k then b else b + 1;
      assert r[a] == bots[a'] && r[b] == bots[b'];
    }
  }

  /** After the first load the first loaded chatbot is the active one. */
  lemma LoadSelectsFirst(st: AppState, loaded: seq<Chatbot>)
    requires st.authenticated && !st.initialized && |loaded| > 0
    ensures ActiveChatbot(FinishLoad(st, loaded).chatbots, FinishLoad(st, loaded).activeChatbotId) == Some(loaded[0])
  {
    assert ChatbotIds(loaded)[0] == loaded[0].id;
  }

  /** Two appends to the same existing session land in order at its end. */
  lemma AppendTwiceLandsAtEnd(bots: seq<Chatbot>, k: nat, j: nat, u: Message, a: Message)
    requires UniqueIds(bots) && k < |bots|
    requires UniqueSessionIds(bots[k].sessions) && j < |bots[k].sessions|
    ensures var cid := bots[k].id;
      var sid := bots[k].sessions[j].id;
      var found := FindChatbot(AppendMessageIn(AppendMessageIn(bots, cid, sid, u), cid, sid, a), cid);
      && found.Some?
      && FindSession(found.value.sessions, sid).Some?
      && FindSession(found.value.sessions, sid).value.messages == bots[k].sessions[j].messages + [u, a]
  {
    var cid := bots[k].id;
    var sid := bots[k].sessions[j].id;
    var mid := AppendMessageIn(bots, cid, sid, u);
    AppendKeepsShape(bots, k, j, u);
    var r := AppendMessageIn(mid, cid, sid, a);
    AppendKeepsShape(mid, k, j, a);
    FindUnique(r, k);
    FindSessionUnique(r[k].sessions, j);
    assert bots[k].sessions[j].messages + [u] + [a] == bots[k].sessions[j].messages + [u, a];
  }
}

=== FILE: text.dfy ===
/** String helpers the chat front-end relies on implicitly: JavaScript's
    `String.prototype.trim` and the decimal rendering of
    the millisecond counter that several identifiers are built from. */
module Text {

  /** The characters `trim` removes: ECMAScript white space and line terminators. */
  predicate IsSpace(c: char) {
    || c == ' ' || c == '\t' || c == '\n' || c == '\r'
    || c == '\U{000B}' || c == '\U{000C}' || c == '\U{00A0}' || c == '\U{1680}'
    || ('\U{2000}' <= c <= '\U{200A}')
    || c == '\U{2028}' || c == '\U{2029}' || c == '\U{202F}' || c == '\U{205F}'
    || c == '\U{3000}' || c == '\U{FEFF}'
  }

  predicate AllSpace(s: string) {
    forall i :: 0 <= i < |s| ==> IsSpace(s[i])
  }

  /** Drops leading white space: the result is a suffix of `s` and everything
      dropped is white space. */
  function TrimStart(s: string): (r: string)
    ensures |r| <= |s| && r == s[|s| - |r|..]
    ensures AllSpace(s[..|s| - |r|])
    ensures r == [] || !IsSpace(r[0])
  {
    if s == [] || !IsSpace(s[0]) then s
    else
      var t := TrimStart(s[1..]);
      assert s[..|s| - |t|] == [s[0]] + s[1..][..|s| - 1 - |t|];
      t
  }

  /** Drops trailing white space: the result is a prefix of `s` and everything
      dropped is white space. */
  function TrimEnd(s: string): (r: string)
    ensures |r| <= |s| && r == s[..|r|]
    ensures AllSpace(s[|r|..])
    ensures r == [] || !IsSpace(r[|r| - 1])
  {
    if s == [] || !IsSpace(s[|s| - 1]) then s
    else
      var t := TrimEnd(s[..|s| - 1]);
      assert s[|t|..] == s[..|s| - 1][|t|..] + [s[|s| - 1]];
      t
  }

  /** `s.trim()`: the infix of `s` left after removing white space from
      both ends; blank exactly when `s` is all white space, and otherwise it
      neither starts nor ends with white space. */
  function Trim(s: string): (r: string)
    ensures |r| <= |s|
    ensures exists a, b :: 0 <= a <= b <= |s| && r == s[a..b] && AllSpace(s[..a]) && AllSpace(s[b..])
    ensures r == [] <==> AllSpace(s)
    ensures r != [] ==> !IsSpace(r[0]) && !IsSpace(r[|r| - 1])
  {
    var a := TrimStart(s);
    var r := TrimEnd(a);
    TrimIsInfix(s, a, r);
    TrimBlankIffSpace(s, a, r);
    r
  }

  /** Trimming both ends leaves an infix of `s` with white space on either
      side of it. */
  lemma TrimIsInfix(s: string, a: string, r: string)
    requires a == TrimStart(s) && r == TrimEnd(a)
    ensures var lo := |s| - |a|;
      && lo + |r| <= |s| && r == s[lo..lo + |r|]
      && AllSpace(s[..lo]) && AllSpace(s[lo + |r|..])
  {
    PrefixOfSuffix(s, a, r);
  }

  /** A prefix `r` of a suffix `a` of `s` is the infix of `s` starting where
      `a` does, and what follows `r` in `a` is what follows it in `s`. */
  lemma PrefixOfSuffix(s: string, a: string, r: string)
    requires |a| <= |s| && a == s[|s| - |a|..]
    requires |r| <= |a| && r == a[..|r|]
    ensures r == s[|s| - |a|..|s| - |a| + |r|]
    ensures a[|r|..] == s[|s| - |a| + |r|..]
  {
  }

  /** The trimmed string is empty exactly when `s` is all white space. */
  lemma TrimBlankIffSpace(s: string, a: string, r: string)
    requires a == TrimStart(s) && r == TrimEnd(a)
    ensures r == [] <==> AllSpace(s)
  {
    if a == [] {
      assert s[..|s|] == s;
    } else {
      assert !IsSpace(s[|s| - |a|]);
      assert !AllSpace(a) by { assert !IsSpace(a[0]); }
    }
  }

  /** A string with no surrounding white space is its own trim; in
      particular trimming is idempotent. */
  lemma TrimFixesTrimmed(s: string)
    requires s == [] || (!IsSpace(s[0]) && !IsSpace(s[|s| - 1]))
    ensures Trim(s) == s
  {
  }

  lemma TrimIdempotent(s: string)
    ensures Trim(Trim(s)) == Trim(s)
  {
    TrimFixesTrimmed(Trim(s));
  }

  function DigitChar(d: nat): (c: char)
    requires d < 10
    ensures '0' <= c <= '9'
  {
    (48 + d) as char
  }

  /** Decimal rendering of a natural number, as template literals print the
      value of `Date.now()`. */
  function NatToString(n: nat): (r: string)
    ensures |r| >= 1
    ensures forall i :: 0 <= i < |r| ==> '0' <= r[i] <= '9'
    ensures r[0] == '0' ==> n == 0
    decreases n
  {
    if n < 10 then [DigitChar(n)]
    else NatToString(n / 10) + [DigitChar(n % 10)]
  }

  /** Reads a string of decimal digits back into its value. */
  function ParseDecimal(s: string): nat
    requires forall i :: 0 <= i < |s| ==> '0' <= s[i] <= '9'
  {
    if s == [] then 0
    else ParseDecimal(s[..|s| - 1]) * 10 + (s[|s| - 1] as int - 48)
  }

  lemma {:induction false} ParseNatToString(n: nat)
    ensures ParseDecimal(NatToString(n)) == n
    decreases n
  {
    if n >= 10 {
      var s := NatToString(n);
      assert s[..|s| - 1] == NatToString(n / 10);
      ParseNatToString(n / 10);
    }
  }

  /** Distinct counter values give distinct strings. */
  lemma NatToStringInjective(m: nat, n: nat)
    requires NatToString(m) == NatToString(n)
    ensures m == n
  {
    ParseNatToString(m);
    ParseNatToString(n);
  }
}

=== FILE: types.dfy ===
/** The entities of the chat front-end (lib/types.ts) and the two result
    shapes every layer shares: an optional value and the gateway's
    `{success, error}` record. */
module Types {

  datatype Option<+T> = None | Some(value: T) {
    function GetOr(default: T): T {
      match this
      case Some(v) => v
      case None => default
    }
  }

  /** The `{success, error}` value every gateway call resolves to. */
  datatype Status = Success | Failure(error: string)

  datatype Role = User | Assistant | System

  /** The role as it is written to the `role` column. */
  function RoleName(r: Role): (s: string)
    ensures s != ""
    ensures r == User <==> s == "user"
    ensures r == Assistant <==> s == "assistant"
    ensures r == System <==> s == "system"
  {
    match r
    case User => "user"
    case Assistant => "assistant"
    case System => "system"
  }

  datatype Message = Message(id: string, role: Role, content: string, timestamp: string)

  datatype Session = Session(id: string, name: string, messages: seq<Message>, threadId: string)

  /** Every field is optional: `None` is an absent (undefined) property,
      which is not the same as an empty string. */
  datatype Settings = Settings(
    webhookUrl: Option<string>,
    botIdKey: Option<string>,
    botIdValue: Option<string>,
    threadIdKey: Option<string>,
    messageKey: Option<string>,
    responseKey: Option<string>)

  /** The settings object `{}`. */
  const EmptySettings := Settings(None, None, None, None, None, None)

  datatype Chatbot = Chatbot(id: string, name: string, sessions: seq<Session>, settings: Option<Settings>)

  function ChatbotIds(bots: seq<Chatbot>): (ids: seq<string>)
    ensures |ids| == |bots|
    ensures forall i :: 0 <= i < |bots| ==> ids[i] == bots[i].id
  {
    seq(|bots|, i requires 0 <= i < |bots| => bots[i].id)
  }

  function SessionIds(sessions: seq<Session>): (ids: seq<string>)
    ensures |ids| == |sessions|
    ensures forall i :: 0 <= i < |sessions| ==> ids[i] == sessions[i].id
  {
    seq(|sessions|, i requires 0 <= i < |sessions| => sessions[i].id)
  }

  /** The position `Array.prototype.find` stops at: the first occurrence of
      `x`, or `None` when there is none. */
  function IndexOf(xs: seq<string>, x: string): (r: Option<nat>)
    ensures r.None? <==> x !in xs
    ensures r.Some? ==> r.value < |xs| && xs[r.value] == x
    ensures r.Some? ==> forall j :: 0 <= j < r.value ==> xs[j] != x
  {
    if xs == [] then None
    else if xs[0] == x then Some(0)
    else match IndexOf(xs[1..], x)
      case None => None
      case Some(k) => Some(k + 1)
  }

  /** `chatbots.find((bot) => bot.id === id)` */
  function FindChatbot(bots: seq<Chatbot>, id: string): (r: Option<Chatbot>)
    ensures r.None? <==> forall i :: 0 <= i < |bots| ==> bots[i].id != id
    ensures r.Some? ==> r.value in bots && r.value.id == id
  {
    match IndexOf(ChatbotIds(bots), id)
    case None => None
    case Some(k) => Some(bots[k])
  }

  /** `sessions.find((session) => session.id === id)` */
  function FindSession(sessions: seq<Session>, id: string): (r: Option<Session>)
    ensures r.None? <==> forall i :: 0 <= i < |sessions| ==> sessions[i].id != id
    ensures r.Some? ==> r.value in sessions && r.value.id == id
  {
    match IndexOf(SessionIds(sessions), id)
    case None => None
    case Some(k) => Some(sessions[k])
  }

  /** With unique ids, the found chatbot is the one at the id's position. */
  lemma FindUnique(bots: seq<Chatbot>, k: nat)
    requires UniqueIds(bots) && k < |bots|
    ensures FindChatbot(bots, bots[k].id) == Some(bots[k])
  {
    var r := IndexOf(ChatbotIds(bots), bots[k].id);
    assert ChatbotIds(bots)[k] == bots[k].id;
  }

  /** No two chatbots share an id. The source never checks this; ids are
      built from the millisecond clock, so it holds as long as the clock
      never repeats a value. */
  ghost predicate UniqueIds(bots: seq<Chatbot>) {
    forall i, j :: 0 <= i < |bots| && 0 <= j < |bots| && bots[i].id == bots[j].id ==> i == j
  }

  ghost predicate UniqueSessionIds(sessions: seq<Session>) {
    forall i, j :: 0 <= i < |sessions| && 0 <= j < |sessions| && sessions[i].id == sessions[j].id ==> i == j
  }

  lemma FindSessionUnique(sessions: seq<Session>, k: nat)
    requires UniqueSessionIds(sessions) && k < |sessions|
    ensures FindSession(sessions, sessions[k].id) == Some(sessions[k])
  {
    assert SessionIds(sessions)[k] == sessions[k].id;
  }
}
